=== FILE: README.md ===
# CareXchange core, modelled in Dafny

CareXchange is a medicine-donation web application. Donors list unused medicines, recipients
request them, and an administrator verifies listings. This project models its core:

- the route gate in `src/middleware.js`, which decides for each page request whether to proceed,
  redirect to the login page (and drop the session cookie) or send the user home;
- the `Medicine` record with its constraints, derived values, pre-save expiry hook, the two listing
  statics and `markAsDonated`, together with the medicines page's client-side filter and sort and
  the `GET /api/medicines` listing;
- the `User` record with its setters, constraints and password-hashing pre-save hook,
  `matchPassword`, and the auth routes: signup, login, change-password, forgot-password,
  reset-password `POST` and verify-email `POST`/`PUT`;
- `GET`/`PUT /api/users/profile`;
- the `Donation` and `Request` records, `POST /api/donations` (with Mongoose's casts and
  validation) and `GET /api/donations`.

Each route is a pure function from the collection it reads, its inputs and the
outside collaborators to the answer and the new collection. Beside it, a method on the store class
(`Users.UserStore`, `DonationsRoute.DonationStore`) performs the same steps in place, and its
`ensures` ties the new state and the reply to that function. A document whose fields are updated
and then saved (`Medicines.MedicineDocument`) is a class.

Some outside collaborators become parameters:

- bcrypt, SHA-256 and JWT signing form one `Crypto.Primitives` value, whose `Sound` predicate
  states what the model relies on:
  - bcrypt hashes start with `$2` and are 60 characters long;
  - a hash matches the password it was made from;
  - a match needs a 60-character hash.
- The clock is a `now` parameter.
- Random tokens are parameters.
- The JWT check of a cookie is an `Auth` outcome.
- The database is the collection.
- The mailer is its delivered-or-failed verdict.

Saving follows Mongoose's order. Setters run on assignment, the schema's validators run on the
whole document, and only then does the `pre('save')` hook run. This has consequences that the model
states:

- **The expiry override never changes a stored record.** The pre-save hook
  (`src/models/Medicine.js:203-209`) is written to mark a medicine `expired` when it is saved after
  its expiry date. In the code, the `expiryDate`
  validator (`src/models/Medicine.js:56-61`) rejects such a save before the hook
  (`src/models/Medicine.js:204-209`) runs. So the model follows the code: `markAsDonated` on an
  expired medicine fails validation, and the stored record is left as it was
  (`Medicines.DonatingExpiredRejected`, `Medicines.OverrideIdleAfterValidation`).
- **Change-password skips the length check.** It hashes before saving, so the schema's
  8-character minimum is checked against the 60-character hash and never against the new
  password (`ChangePasswordRoute.NewPasswordLengthUnchecked`).
- **Some signup passwords lock the account.** A signup password that starts with `$2` is stored
  unhashed. If it is not exactly 60 characters long, no login can ever succeed with it
  (`LoginRoute.DollarTwoSignupLocksOut`).
- **The `2000+` price filter matches nothing.** The medicines page offers it, but the filter splits
  it on `-`, and `Number("2000+")` is `NaN` (`MedicinesPage.PlusRangeMatchesNothing`).

## Model

| member | source | states |
|---|---|---|
| Middleware.MatchingRoute | src/middleware.js:20-22 | the index found is the first protected prefix the path starts with; none exactly when the path starts with no prefix |
| Middleware.AllowedRoles | src/middleware.js:60-63 | a path has roles to check exactly when some table key is its prefix, and they are roles the schema knows |
| Middleware.Decide | src/middleware.js:29-85 | the cookie is cleared only when a token's lookup failed; a redirect goes home, or to the login page when there is no token |
| Middleware.NoTokenProtectedRedirectsToLogin | src/middleware.js:30-36 | without a token, a protected path redirects to `/login` with `from` = the path and the sign-in prompt |
| Middleware.NoTokenElsewhereProceeds | src/middleware.js:30-36 | without a token, any unprotected path proceeds |
| Middleware.SignedInElsewhereProceeds | src/middleware.js:38-85 | a signed-in user whose lookup succeeds proceeds on any path neither protected nor public-only |
| Middleware.SignedInLeavesPublicOnly | src/middleware.js:11 | a signed-in user of any role on `/login` or `/register` is sent to `/` |
| Middleware.KeysExclusive | src/middleware.js:4-8 | no path starts with two different keys of the role table, so the lookup order does not matter |
| Middleware.HeadsDiffer | src/middleware.js:4-8 | two prefixes that differ at position 3 cannot both begin one path |
| Middleware.RolesOfMatchedKey | src/middleware.js:60-63 | the roles applied to a path are those of the table key it starts with |
| Middleware.RoleGate | src/middleware.js:60-68 | on a protected path a signed-in user proceeds exactly when the key's roles include theirs, and otherwise goes to `/` |
| Middleware.RoleTable | src/middleware.js:4-8 | donors may `/donate`, recipients may not; recipients may `/request`, donors may not; admins may `/profile` |
| Middleware.FailedLookupOnProtected | src/middleware.js:70-80 | a failed token lookup on a protected path redirects to `/login` with the session-expired message and drops the cookie |
| Middleware.FailedLookupElsewhere | src/middleware.js:70-84 | a failed token lookup on an unprotected path proceeds |
| Middleware.PrefixMatching | src/middleware.js:20-22 | every extension of a protected key is gated like the key itself, for all three kinds of session |
| Medicines.RatingViolations | src/models/Medicine.js:9-14 | the ratings raise no error exactly when every value lies in 1..5 |
| Medicines.ValidationErrors | src/models/Medicine.js:21-165 | no error exactly when every constraint holds; a quantity below 1, a non-future expiry and a negative price each report their own message |
| Medicines.FieldBounds | src/models/Medicine.js:9-73 | a valid medicine has ratings in 1..5, quantity at least 1, expiry after now and a non-negative price |
| Medicines.RatingOutOfRangeRejected | src/models/Medicine.js:9-14 | one rating outside 1..5 makes the whole medicine invalid |
| Medicines.RemainingQuantity | src/models/Medicine.js:186-188 | the quantity while available, zero in any other status |
| Medicines.RemainingWhileAvailable | src/models/Medicine.js:186-188 | for a valid medicine, something remains exactly when it is available |
| Medicines.SumRatingsBounds | src/models/Medicine.js:191-195 | n valid ratings sum to between n and 5n |
| Medicines.RoundToTenth | src/models/Medicine.js:194 | the result is a multiple of 0.1 within 0.05 of the input |
| Medicines.RoundToTenthWithin | src/models/Medicine.js:194 | rounding keeps a value inside any integer interval holding it |
| Medicines.TrustScore | src/models/Medicine.js:191-195 | 0 without ratings; otherwise a multiple of 0.1 within 0.05 of the mean rating (the half-up one-decimal rounding), and between 1 and 5 when the ratings are valid |
| Medicines.QuotientBounds | src/models/Medicine.js:193 | a sum between n and 5n divided by n lies in 1..5 |
| Medicines.MeanRatingBounds | src/models/Medicine.js:191-195 | the mean of valid ratings, and its rounding, lie in 1..5 |
| Medicines.TrustScoreExamples | src/models/Medicine.js:191-195 | ratings 4, 4, 5 score 4.3; ratings 4, 5 score 4.5 |
| Medicines.FindAvailable | src/models/Medicine.js:212-217 | exactly the available medicines whose expiry is ahead, in their original order |
| Medicines.FindByCategory | src/models/Medicine.js:220-226 | exactly the available, unexpired medicines of the category, in their original order |
| Medicines.AvailableNotExpired | src/models/Medicine.js:181-217 | anything listed as available is not expired and has its full quantity remaining |
| Medicines.FindByCategoryNarrows | src/models/Medicine.js:212-226 | the category listing is the available listing narrowed to the category |
| Medicines.ExpiryBoundary | src/models/Medicine.js:56-61 | at the expiry instant a medicine is neither expired nor available, and fails validation |
| Medicines.ExpiryOverride | src/models/Medicine.js:204-209 | the status becomes `expired` exactly when the medicine has expired; nothing else changes |
| Medicines.OverrideIdleAfterValidation | src/models/Medicine.js:56-61 | on a medicine that passes validation the expiry hook changes nothing |
| Medicines.MedicineDocument.constructor | src/models/Medicine.js:21-165 | a new document holds the given fields and has no stored version |
| Medicines.MedicineDocument.PreSaveHook | src/models/Medicine.js:204-209 | the document's fields become the expiry override of the old fields |
| Medicines.MedicineDocument.Save | src/models/Medicine.js:204-209 | an invalid document is rejected with its errors and not stored; a valid one is stored, unchanged by the hook |
| Medicines.MedicineDocument.MarkAsDonated | src/models/Medicine.js:234-238 | status `donated` and the recipient are assigned, and the save goes through exactly when the medicine was valid |
| Medicines.DonationKeepsValidity | src/models/Medicine.js:234-238 | donating changes no constraint's verdict |
| Medicines.DonatingExpiredRejected | src/models/Medicine.js:234-238 | donating a medicine whose expiry has passed reports the future-expiry error |
| Medicines.DonatedLeavesAvailable | src/models/Medicine.js:186-217 | a donated medicine is never listed as available and has nothing remaining |
| MedicinesPage.Filtered | src/app/medicines/page.jsx:89-120 | exactly the items that pass every filter, in their original order and with their multiplicity |
| MedicinesPage.NoFiltersKeepAll | src/app/medicines/page.jsx:89-120 | with empty search and filters every item is kept, in order |
| MedicinesPage.SearchFindsName | src/app/medicines/page.jsx:93-96 | a query occurring in the name, ignoring case, matches |
| MedicinesPage.FreeRange | src/app/medicines/page.jsx:106-107 | the `free` range keeps exactly the free medicines |
| MedicinesPage.BoundedRange | src/app/medicines/page.jsx:108-111 | a range `lo-hi` with hi not 0 keeps exactly the prices in lo..hi |
| MedicinesPage.OfferedRanges | src/app/medicines/page.jsx:159-165 | the offered ranges `0-500` and `500-2000` keep prices in 0..500 and 500..2000 |
| MedicinesPage.OpenRange | src/app/medicines/page.jsx:108-111 | a range without a dash keeps exactly the prices at or above its number |
| MedicinesPage.PlusRangeMatchesNothing | src/app/medicines/page.jsx:159-165 | the offered `2000+` range keeps no medicine at all |
| MedicinesPage.Sorted | src/app/medicines/page.jsx:123-147 | a permutation of the input ordered by ascending price, descending price, descending mean rating, or newest first |
| MedicinesPage.SortedKeepsTies | src/app/medicines/page.jsx:123-147 | items with equal sort keys keep their relative order |
| MedicinesPage.Shown | src/app/medicines/page.jsx:89-147 | the shown list holds exactly the passing items, with the multiplicity of the filtered list |
| MedicinesApi.OuterStatus | src/app/api/medicines/route.js:79-88 | 400 exactly for a validation error, 503 exactly for a Mongo error, 500 otherwise |
| MedicinesApi.OuterMessage | src/app/api/medicines/route.js:79-90 | `Invalid data format` exactly for a validation error, `Database error` exactly for a Mongo error, `Failed to fetch medicines` exactly when the status is 500 |
| MedicinesApi.Newest | src/app/api/medicines/route.js:28 | a permutation of the medicines ordered newest first |
| MedicinesApi.Format | src/app/api/medicines/route.js:44-62 | the listing carries the medicine, and a donor exactly when the donor reference resolves |
| MedicinesApi.Get | src/app/api/medicines/route.js:5-95 | each fault gets its status and message, a thrown error the outer `catch`'s pair; a list is returned exactly when nothing failed |
| MedicinesApi.NewestAvailable | src/app/api/medicines/route.js:24-30 | the sorted query result holds exactly the available, unexpired medicines |
| MedicinesApi.ListsExactlyAvailable | src/app/api/medicines/route.js:24-62 | every listed medicine is stored, available and unexpired, and every such medicine is listed |
| MedicinesApi.ListingShape | src/app/api/medicines/route.js:24-62 | one listing per available medicine, newest first, each keeping all its ratings |
| Users.RoleOrDefault | src/models/User.js:26-30 | the role defaults to `recipient`, a listed role |
| Users.NormalizeEmail | src/models/User.js:16-22 | the stored address is never longer than the given one |
| Users.NormalizeEmailIdempotent | src/models/User.js:16-22 | normalising an address twice changes nothing |
| Users.NormalizeEmailIgnoresCase | src/models/User.js:16-22 | addresses differing only in letter case normalise alike |
| Users.Violations | src/models/User.js:10-62 | no error exactly when the record is valid; an unknown role and a short password report their messages |
| Users.HashOnSave | src/models/User.js:71-82 | an unmodified or `$2`-prefixed password is kept; any other is replaced by its hash |
| Users.HashOnSaveIdempotent | src/models/User.js:71-82 | saving again never rehashes what the hook stored |
| Users.Save | src/models/User.js:71-82 | invalid records are refused with their errors; otherwise only the password may change, to the hook's result |
| Users.MatchPassword | src/models/User.js:85-88 | false without a stored password, otherwise bcrypt's verdict |
| Users.StoredPasswordMatches | src/models/User.js:71-88 | a password the hook hashed matches afterwards |
| Users.RawDollarTwoNeverMatches | src/models/User.js:71-88 | a `$2` password that is not 60 characters is stored raw and matches nothing |
| Users.FindByEmail | src/models/User.js:16-22 | the first user whose address equals the normalised query; none exactly when nobody holds it |
| Users.FindByEmailIgnoresCase | src/models/User.js:16-22 | a lookup ignores the query's case and padding |
| Users.FindByEmailAppended | src/app/api/auth/signup/route.js:59-86 | an account appended under an untaken address is found by that address |
| Users.FindAddress | src/models/User.js:16-22 | the first user stored under exactly this address |
| Users.FindById | src/app/api/users/profile/route.js:64 | an index holding the id; none exactly when nobody has it |
| Users.FindByEmailAfterUpdate | src/models/User.js:16-22 | replacing a record by one with the same address changes no lookup by address |
| Users.FindByIdAfterUpdate | src/app/api/users/profile/route.js:77-82 | replacing a record by one with the same id changes no lookup by id |
| Users.Apply | src/models/User.js:71-82 | a stored save replaces only its record; a refused one changes nothing |
| Users.UserStore.constructor | src/models/User.js:95-97 | the store starts with the given users |
| Users.UserStore.SaveAt | src/models/User.js:71-82 | the outcome is `Save` of the record, and the collection is updated by it |
| Users.UserStore.Insert | src/app/api/auth/signup/route.js:78-86 | `create` saves a new document and appends it exactly when it is stored |
| SignupRoute.NewUser | src/app/api/auth/signup/route.js:78-86 | the created record holds the normalised role and address, the trimmed fields, the raw password and no tokens |
| SignupRoute.Signup | src/app/api/auth/signup/route.js:48-140 | missing fields and a taken address are 400 with nothing stored; a record failing the schema is 400 with the schema messages joined by `, `; success, exactly when the body is complete, the address fresh and the record valid, is 201, appends the new record, whose password is the pre-save hook's hash of the body's password, and answers its public fields and a token for its id |
| SignupRoute.SignupSchemaErrors | src/app/api/auth/signup/route.js:89-96 | an unknown role or short password is 400 with the joined schema messages, and the enum or length message is among them |
| SignupRoute.BlankNameRejected | src/app/api/auth/signup/route.js:48-96 | a name of white space passes the presence check, fails the schema and is 400 with `Name is required` first |
| SignupRoute.SignupRoleNormalised | src/app/api/auth/signup/route.js:56 | a successful signup stores a listed role, the trimmed lower-cased input |
| SignupRoute.SignupKeepsConsistent | src/app/api/auth/signup/route.js:59-86 | with a fresh id, signup keeps ids and addresses unique |
| SignupRoute.HandleSignup | src/app/api/auth/signup/route.js:48-140 | the in-place handler's reply and collection are those of `Signup` |
| LoginRoute.Login | src/app/api/auth/login/route.js:35-117 | 400 without both fields; success exactly when the address is found and bcrypt accepts the password, answering that user and a token for its id; otherwise 401 |
| LoginRoute.UniformRejection | src/app/api/auth/login/route.js:54-78 | an unknown address and a wrong password get the same 401 answer |
| LoginRoute.LoginIgnoresAddressCase | src/app/api/auth/login/route.js:45 | login answers alike for the address in any case |
| LoginRoute.SignupThenLogin | src/app/api/auth/login/route.js:45-117 | after a signup, logging in with the same address and password succeeds for the new account |
| LoginRoute.DollarTwoSignupLocksOut | src/models/User.js:71-82 | a `$2` signup password not 60 characters long is stored raw and no login succeeds |
| ChangePasswordRoute.Updated | src/app/api/auth/change-password/route.js:49-50 | only the password changes, to the hash of the new one |
| ChangePasswordRoute.ChangePassword | src/app/api/auth/change-password/route.js:10-61 | each failure (401, 500, 400, 404, wrong password) leaves the collection unchanged; success replaces only the caller's password |
| ChangePasswordRoute.HashedExactlyOnce | src/app/api/auth/change-password/route.js:49-51 | the stored password is the new password's hash, not a hash of a hash |
| ChangePasswordRoute.NewPasswordLengthUnchecked | src/app/api/auth/change-password/route.js:49-51 | any non-empty new password is accepted, the 8-character minimum notwithstanding |
| ChangePasswordRoute.ChangeThenLogin | src/app/api/auth/change-password/route.js:49-55 | after a change, login with the new password succeeds |
| ChangePasswordRoute.HandleChangePassword | src/app/api/auth/change-password/route.js:8-62 | the in-place handler's reply and collection are those of `ChangePassword` |
| ForgotPasswordRoute.ResetLink | src/app/api/auth/forgot-password/route.js:38 | the link starts with the application URL and ends with the token |
| ForgotPasswordRoute.ForgotPassword | src/app/api/auth/forgot-password/route.js:8-103 | 400 without an address, 404 for an unknown one; otherwise the token and expiry are saved, mail goes out exactly on success, and a mailer error is a 500 carrying its message |
| ForgotPasswordRoute.IssuedTokenIsLinked | src/app/api/auth/forgot-password/route.js:29-38 | the saved token is the one in the link, expiring one hour after now; no other modelled field changes |
| ForgotPasswordRoute.HandleForgotPassword | src/app/api/auth/forgot-password/route.js:8-103 | the in-place handler's reply, mail and collection are those of `ForgotPassword` |
| ResetPasswordRoute.FindByResetToken | src/app/api/auth/reset-password/route.js:19-22 | the first account holding the token with expiry strictly after now |
| ResetPasswordRoute.ResetPassword | src/app/api/auth/reset-password/route.js:6-47 | 400 for missing fields or no holder; schema failures are 500; success clears token and expiry and stores the hook's result |
| ResetPasswordRoute.ExpiryIsExclusive | src/app/api/auth/reset-password/route.js:21 | at or after the expiry instant the token is refused |
| ResetPasswordRoute.ShortPasswordIsServerError | src/app/api/auth/reset-password/route.js:31-46 | a password under 8 characters is a 500 and nothing changes |
| ResetPasswordRoute.SingleUse | src/app/api/auth/reset-password/route.js:31-35 | a token that reset a password is refused the next time |
| ResetPasswordRoute.ResetSucceeds | src/app/api/auth/reset-password/route.js:31-39 | an acceptable password with a live token resets it, clears the token and then matches |
| ResetPasswordRoute.OnlyHolderFound | src/app/api/auth/reset-password/route.js:19-22 | when only one record holds the token, the lookup finds it |
| ResetPasswordRoute.ForgotThenReset | src/app/api/auth/reset-password/route.js:19-39 | a token issued by forgot-password resets the password within the hour, and the new password then matches |
| ResetPasswordRoute.HandleResetPassword | src/app/api/auth/reset-password/route.js:6-47 | the in-place handler's reply and collection are those of `ResetPassword` |
| VerifyEmailRoute.VerifyLink | src/app/api/auth/verify-email/route.js:39 | the link starts with the base URL and ends with the raw token |
| VerifyEmailRoute.SendVerification | src/app/api/auth/verify-email/route.js:8-74 | 404 for an unknown address, 400 when verified; on success the digest is stored and the link mailed; a mail failure clears the token and is a 500 |
| VerifyEmailRoute.FindByDigest | src/app/api/auth/verify-email/route.js:96 | the first account holding the digest; none exactly when nobody does |
| VerifyEmailRoute.ConfirmVerification | src/app/api/auth/verify-email/route.js:77-119 | 400 without a token or for an unknown digest; success marks the account verified and clears the digest |
| VerifyEmailRoute.ConfirmSingleUse | src/app/api/auth/verify-email/route.js:105-107 | a confirmed token is refused the next time |
| VerifyEmailRoute.SendThenConfirm | src/app/api/auth/verify-email/route.js:30-111 | the raw token mailed in the link confirms the address and leaves no token behind |
| VerifyEmailRoute.HandleSendVerification | src/app/api/auth/verify-email/route.js:8-74 | the in-place handler's reply, mail and collection are those of `SendVerification` |
| VerifyEmailRoute.HandleConfirmVerification | src/app/api/auth/verify-email/route.js:77-119 | the in-place handler's reply and collection are those of `ConfirmVerification` |
| ProfileRoute.ProfileHidesOnlyPassword | src/app/api/users/profile/route.js:24-31 | two records project alike exactly when they differ at most in the password |
| ProfileRoute.GetProfile | src/app/api/users/profile/route.js:7-45 | 401 without a token, 500 for a bad one, 404 for an unknown id; success returns the user's modelled fields without the password |
| ProfileRoute.UpdatesOnlyAllowed | src/app/api/users/profile/route.js:70-75 | the update loop touches only name, phone and address |
| ProfileRoute.FieldRule | src/app/api/users/profile/route.js:71-75 | each of the three becomes the trimmed body value when truthy and otherwise keeps its value |
| ProfileRoute.ApplyAllowed | src/app/api/users/profile/route.js:70-75 | the loop's result is the fold of the field updates |
| ProfileRoute.UpdateProfile | src/app/api/users/profile/route.js:48-95 | failures leave the collection unchanged; success stores the updated record and answers it without the password |
| ProfileRoute.UpdateKeepsCredentials | src/app/api/users/profile/route.js:70-77 | a profile update keeps id, email, role, password, verification state and tokens |
| ProfileRoute.BlankNameIsServerError | src/app/api/users/profile/route.js:73-93 | a name that trims to nothing fails the schema and is a 500 |
| ProfileRoute.ReloadSeesSaved | src/app/api/users/profile/route.js:77-90 | the record reloaded after the save is the one saved |
| ProfileRoute.HandleUpdateProfile | src/app/api/users/profile/route.js:48-95 | the in-place handler's reply and collection are those of `UpdateProfile` |
| Donations.Violations | src/models/Donation.js:3-52 | no error exactly when the donation is valid; a low quantity, a long description and an unknown condition report their messages |
| Donations.StatusOrDefault | src/models/Donation.js:18-22 | the status defaults to `active`, a listed status |
| Donations.CastNumber | src/models/Donation.js:23-27 | a number is kept, a digit string converts, and a cast fails only for a string that is not a number |
| Donations.CastTimestamp | src/models/Donation.js:28-31 | a number casts to itself exactly when it is within 8.64e15 ms of the epoch; otherwise the cast fails on the path |
| Donations.CastDate | src/models/Donation.js:28-31 | a number casts exactly when it is in the `Date` range, a non-empty string exactly when the date parser reads it; only `null` and `''` leave the path unset, so a boolean fails |
| Donations.DefaultStatusValid | src/models/Donation.js:3-52 | a donation meeting the field constraints is valid with the default status |
| Requests.Violations | src/models/Request.js:3-49 | no error exactly when the request is valid; each failing field reports its message |
| Requests.NewRequest | src/models/Request.js:18-32 | status and urgency default to `pending` and `medium`; the medicine name is trimmed |
| Requests.DefaultsAccepted | src/models/Request.js:3-49 | with the defaults, a request is accepted exactly when its required fields, quantity and description are |
| DonationsRoute.FirstMissing | src/app/api/donations/route.js:35-43 | the first required field the body leaves falsy; none exactly when all are supplied |
| DonationsRoute.CheckRequired | src/app/api/donations/route.js:35-43 | the loop finds the first falsy required field |
| DonationsRoute.Build | src/app/api/donations/route.js:46-50 | the donor email is the cookie's, the status is `active`, and the fields are the body's cast values |
| DonationsRoute.ExpiryCast | src/app/api/donations/route.js:55 | the body's `expiryDate` cast to a date; a failure is reported on `expiryDate` |
| DonationsRoute.CastErrors | src/app/api/donations/route.js:55 | cast errors arise only on quantity and expiry date |
| DonationsRoute.Errors | src/app/api/donations/route.js:62-72 | no error exactly when nothing failed to cast and the donation is valid |
| DonationsRoute.Post | src/app/api/donations/route.js:6-83 | 401 without a token or email, 400 naming the first missing field; created exactly when casts and validation pass, appending the donation; nothing stored otherwise |
| DonationsRoute.CreatedDonationShape | src/app/api/donations/route.js:46-60 | a created donation is valid, owned by the session's email and active |
| DonationsRoute.PostReadsOnlyFields | src/app/api/donations/route.js:35-55 | in the model, which leaves out the keys the `...data` spread could add beyond the schema, the answer depends only on the six schema fields of the body |
| DonationsRoute.BodyCannotChooseDonorOrStatus | src/app/api/donations/route.js:46-50 | a body's `donorEmail` or `status` changes nothing |
| DonationsRoute.ZeroQuantityIsMissing | src/app/api/donations/route.js:36-42 | a quantity of 0 is reported as missing |
| DonationsRoute.QuantityErrorReported | src/app/api/donations/route.js:66-71 | a quantity below 1 is among the reported messages |
| DonationsRoute.OutOfRangeExpiryRejected | src/app/api/donations/route.js:55-71 | a numeric expiry date beyond the `Date` range is a validation failure listing the cast message, and nothing is stored |
| DonationsRoute.NegativeQuantityFailsSchema | src/app/api/donations/route.js:62-72 | a negative quantity passes the presence check and fails validation, storing nothing |
| DonationsRoute.PostOnCompleteBody | src/app/api/donations/route.js:45-72 | with every field present, the answer is the validation failure or the created donation |
| DonationsRoute.ListActive | src/app/api/donations/route.js:85-99 | exactly the active donations, each with its multiplicity, newest first |
| DonationsRoute.ActiveListed | src/app/api/donations/route.js:88-89 | sorting the active donations by the negated creation time keeps exactly the active ones, with their multiplicities, newest first |
| DonationsRoute.DonationStore.constructor | src/app/api/donations/route.js:55 | the store starts with the given donations |
| DonationsRoute.DonationStore.Create | src/app/api/donations/route.js:6-83 | the in-place handler's answer and collection are those of `Post` |
| Js.StringCast | src/app/api/users/profile/route.js:73 | a string is kept as is; a non-negative number reads back as itself |
| Js.IntToStringRoundTrip | src/app/medicines/page.jsx:108-111 | `Number` of a decimal rendering is the number |
| Js.SplitJoin | src/app/medicines/page.jsx:108 | joining the parts of a split with the separator gives back the string |
| Js.SplitAround | src/app/medicines/page.jsx:108 | splitting `a-b` without other dashes gives `[a, b]` |
| Strings.TrimIdempotent | src/models/User.js:11-15 | trimming twice changes nothing |
| Strings.TrimToLower | src/models/User.js:16-22 | trimming and lowercasing commute |
| Seqs.SortByStable | src/app/medicines/page.jsx:123-147 | sorting keeps the relative order of equal keys |
| Validation.Messages | src/app/api/donations/route.js:67 | one message per error, in order |

## Left out

- Database connection and query failures in the auth, profile and donations routes (their 500 answers) are not modelled; the medicines listing models them as a `Fault` parameter.
- JWT signing and verification details (secret, expiry, algorithm) are abstracted to `sign` and an `Auth` outcome; cookie attributes are not modelled.
- The mail transport (nodemailer, `src/lib/mail.js`) and the mail bodies are reduced to the recipient and link, and a delivered-or-failed verdict; `src/lib/mail.js` is not part of this model.
- Races between concurrent requests, including the unique index on `email` racing with the duplicate check, are not modelled: every handler runs atomically.
- The reset-password `PUT` handler is not modelled: it calls `crypto` without importing it, so it always fails.
- The thin routes (`me`, `check-email`, `donations/user`, `medicines/user`, `medicines/[id]` and its `rate`) are not part of this model.
- Unicode letter case and white space are limited to ASCII letters and the usual space characters.
- `Number()` is modelled for plain decimal digits with surrounding white space; signs, decimals, exponents, hexadecimal and `Infinity` are read as not-a-number.
- Donation and profile bodies holding JSON objects or arrays (for example query operators) are not modelled; their values are strings, numbers, booleans or null.
- SignupRoute.Signup, LoginRoute.Login, ChangePasswordRoute.ChangePassword, ForgotPasswordRoute.ForgotPassword, ResetPasswordRoute.ResetPassword, VerifyEmailRoute.SendVerification, VerifyEmailRoute.ConfirmVerification: the auth bodies are strings. A body that is not JSON (400 `Invalid request format` in signup and login, 500 elsewhere) is not modelled, nor is a non-string value where the handler calls a string method or bcrypt (a numeric name or role in signup, a numeric password in login), which throws and is a 500.
- The middleware's matcher configuration, and its `fetch` of the session endpoint, are abstracted to the path and the lookup outcome.
- Verify-email `POST` without an email in the body is not modelled separately: the empty address finds no user.
- DonationsRoute.Build, DonationsRoute.PostReadsOnlyFields: `updatedAt`, image fields, and keys the `...data` spread could add to a donation (`_id`, `recipient`, `createdAt`, `images`) are not modelled, so a body carrying them gets the answer of the same body without them.
- DonationsRoute.Post: a body that is not JSON, or the JSON `null`, makes `req.json()` or `data[field]` throw (src/app/api/donations/route.js:31-37); that 500 `Failed to create donation` answer (route.js:75-81) is not modelled.
- Donations.CastNumber, DonationsRoute.Post: JSON numbers are integers; a fractional quantity such as `1.5` (accepted) or `0.5` (present, then below the minimum) is not modelled.
- ProfileRoute.GetProfile, ForgotPasswordRoute.IssuedTokenIsLinked: the User record's `image`, `createdAt` and `updatedAt` (src/models/User.js:23-25, 39-46, and `timestamps: true`) are not modelled. Every save refreshes `updatedAt` and the profile answer carries all three, so these members speak of the modelled fields only.
- Prices and ratings are integers and the mean rating is a real; JavaScript floating-point rounding in `toFixed` is not modelled.
- MedicinesApi.Newest, DonationsRoute.ListActive: Mongo's `.sort({ createdAt: -1 })` leaves the order among equal creation times unspecified; the model keeps stored order there, a choice of the model. The page's sort is `Array.prototype.sort`, which is stable since ECMAScript 2019, so the tie order MedicinesPage.SortedKeepsTies and Seqs.SortByStable state is the program's.
- The several `new Date()` and `Date.now()` calls inside one request are one `now`.
- The order of the details list in a Mongoose validation error follows the schema's path order.
- `lastLogin` is never updated by the code, and the model keeps it as stored.
- DonationsRoute.Post: the `token` cookie is only checked for presence, as in the code; it is never verified.
- `findByDonor` and the other Medicine statics and methods not named above are not part of this model.

=== FILE: change_password.dfy ===
/**
 * `PUT /api/auth/change-password` (src/app/api/auth/change-password/route.js): the signed-in user
 * proves the current password, and the handler stores bcrypt's hash of the new one and saves.
 * The handler hashes before saving, so the pre-save hook sees a `$2` value and keeps it.
 */
module ChangePasswordRoute {
  import opened Optional
  import opened Strings
  import opened Crypto
  import opened Http
  import opened Users
  import LoginRoute

  const PasswordUpdated := "Password updated successfully"

  /** The record `user.save()` is called on: the loaded user with the freshly hashed password. */
  function Updated(u: User, next: string, c: Primitives, salt: string): (r: User)
    ensures r == u.(password := r.password) && r.password == c.hash(next, salt)
  {
    u.(password := c.hash(next, salt))
  }

  /**
   * The handler. `auth` is the outcome of verifying the `token` cookie; a token `jwtVerify`
   * rejects throws, and the catch answers 500. `salt` is `bcrypt.genSalt(10)`'s result, which
   * both the handler and (were it to hash) the hook would use.
   */
  function ChangePassword(users: seq<User>, auth: Auth, current: string, next: string, c: Primitives, salt: string)
    : (o: Outcome<string>)
    ensures auth.NoToken? ==> o == Outcome(Failure(401, "Unauthorized"), users)
    ensures auth.BadToken? ==> o == Outcome(Failure(500, "Internal server error"), users)
    ensures auth.Verified? && (current == "" || next == "") ==>
      o == Outcome(Failure(400, "Please provide both current and new password"), users)
    ensures auth.Verified? && current != "" && next != "" && FindById(users, auth.userId).None? ==>
      o == Outcome(Failure(404, "User not found"), users)
    ensures (auth.Verified? && current != "" && next != "" && FindById(users, auth.userId).Some?
             && !c.compare(current, users[FindById(users, auth.userId).value].password)) ==>
      o == Outcome(Failure(400, "Current password is incorrect"), users)
    ensures o.reply.Failure? ==> o.users == users
    ensures o.reply.Success? <==>
      && auth.Verified? && current != "" && next != ""
      && FindById(users, auth.userId).Some?
      && c.compare(current, users[FindById(users, auth.userId).value].password)
      && Valid(Updated(users[FindById(users, auth.userId).value], next, c, salt))
    ensures o.reply.Success? ==>
      var i := FindById(users, auth.userId).value;
      && o.reply == Success(200, PasswordUpdated)
      && |o.users| == |users|
      && (forall j :: 0 <= j < |users| && j != i ==> o.users[j] == users[j])
      && o.users[i] == users[i].(password := o.users[i].password)
      && o.users[i].password == HashOnSave(c.hash(next, salt), Some(users[i].password), c, salt)
  {
    match auth
    case NoToken => Outcome(Failure(401, "Unauthorized"), users)
    case BadToken => Outcome(Failure(500, "Internal server error"), users)
    case Verified(id) =>
      if current == "" || next == "" then
        Outcome(Failure(400, "Please provide both current and new password"), users)
      else
        match FindById(users, id)
        case None => Outcome(Failure(404, "User not found"), users)
        case Some(i) =>
          if !c.compare(current, users[i].password) then
            Outcome(Failure(400, "Current password is incorrect"), users)
          else
            match Save(Some(users[i]), Updated(users[i], next, c, salt), c, salt)
            case Invalid(_) => Outcome(Failure(500, "Internal server error"), users)
            case Stored(u) => Outcome(Success(200, PasswordUpdated), users[i := u])
  }

  /** With sound primitives the stored value is the new password's hash, hashed exactly once. */
  lemma HashedExactlyOnce(users: seq<User>, auth: Auth, current: string, next: string, c: Primitives, salt: string)
    requires Sound(c)
    requires ChangePassword(users, auth, current, next, c, salt).reply.Success?
    ensures var i := FindById(users, auth.userId).value;
      ChangePassword(users, auth, current, next, c, salt).users[i].password == c.hash(next, salt)
  {
    var i := FindById(users, auth.userId).value;
    assert StartsWith(c.hash(next, salt), "$2");
  }

  /**
   * The schema's 8-character minimum is never applied to the new password: the validator sees
   * the 60-character hash. A valid account accepts any non-empty new password.
   */
  lemma NewPasswordLengthUnchecked(users: seq<User>, id: ObjectId, current: string, next: string, c: Primitives, salt: string)
    requires Sound(c)
    requires current != "" && next != ""
    requires FindById(users, id).Some? && Valid(users[FindById(users, id).value])
    requires c.compare(current, users[FindById(users, id).value].password)
    ensures ChangePassword(users, Verified(id), current, next, c, salt).reply == Success(200, PasswordUpdated)
  {
    assert |c.hash(next, salt)| == BcryptLength;
  }

  /** After a change the account logs in with the new password. */
  lemma ChangeThenLogin(users: seq<User>, id: ObjectId, current: string, next: string, email: string,
                        c: Primitives, salt: string)
    requires Sound(c)
    requires ChangePassword(users, Verified(id), current, next, c, salt).reply.Success?
    requires email != "" && FindByEmail(users, email) == FindById(users, id)
    ensures var after := ChangePassword(users, Verified(id), current, next, c, salt).users;
      LoginRoute.Login(after, email, next, c).Success?
  {
    var i := FindById(users, id).value;
    var after := ChangePassword(users, Verified(id), current, next, c, salt).users;
    HashedExactlyOnce(users, Verified(id), current, next, c, salt);
    assert after == users[i := after[i]];
    FindByEmailAfterUpdate(users, i, after[i], email);
  }

  /** The handler over the store: guards, then `user.save()` on the loaded record. */
  method HandleChangePassword(store: UserStore, auth: Auth, current: string, next: string, c: Primitives, salt: string)
    returns (reply: Reply<string>)
    modifies store
    ensures Outcome(reply, store.users) == ChangePassword(old(store.users), auth, current, next, c, salt)
  {
    if auth.NoToken? {
      return Failure(401, "Unauthorized");
    }
    if auth.BadToken? {
      return Failure(500, "Internal server error");
    }
    if current == "" || next == "" {
      return Failure(400, "Please provide both current and new password");
    }
    var found := FindById(store.users, auth.userId);
    if found.None? {
      return Failure(404, "User not found");
    }
    var i := found.value;
    if !c.compare(current, store.users[i].password) {
      return Failure(400, "Current password is incorrect");
    }
    var user := store.users[i].(password := c.hash(next, salt));
    var outcome := store.SaveAt(i, user, c, salt);
    if outcome.Invalid? {
      return Failure(500, "Internal server error");
    }
    reply := Success(200, PasswordUpdated);
  }
}

=== FILE: crypto.dfy ===
/**
 * The cryptographic primitives the handlers call, as parameters: bcrypt's `hash` and `compare`,
 * SHA-256 hex digests, and JWT signing. Only the facts the application relies on are assumed of
 * them, collected in `Sound`.
 */
module Crypto {
  import opened Strings

  datatype Primitives = Primitives(
    /** `bcrypt.hash(password, salt)` */
    hash: (string, string) -> string,
    /** `bcrypt.compare(password, hash)` */
    compare: (string, string) -> bool,
    /** `crypto.createHash('sha256').update(s).digest('hex')` */
    sha256: string -> string,
    /** `jwt.sign({ userId }, secret, { expiresIn: '30d' })` */
    sign: nat -> string)

  /** The length of a bcrypt hash string. */
  const BcryptLength := 60

  /**
   * What the application relies on: a bcrypt hash starts with `$2` and is 60 characters long,
   * a password matches its own hash, and `compare` (as bcryptjs does) rejects any stored value
   * that is not 60 characters long.
   */
  ghost predicate Sound(c: Primitives) {
    && (forall p, s :: StartsWith(c.hash(p, s), "$2") && |c.hash(p, s)| == BcryptLength)
    && (forall p, s :: c.compare(p, c.hash(p, s)))
    && (forall p, h :: c.compare(p, h) ==> |h| == BcryptLength)
  }
}

=== FILE: donation.dfy ===
/**
 * The donation record (src/models/Donation.js): its fields, defaults and schema constraints,
 * and the casts Mongoose applies to body values before validating them.
 * An absent string path is the empty string, which `required` rejects as it rejects a missing one.
 */
module Donations {
  import opened Optional
  import opened Strings
  import opened Js
  import opened Validation

  datatype Donation = Donation(
    id: nat,
    medicine: string,
    donorEmail: string,
    /** Never set by the creating handler. */
    recipient: Option<nat>,
    status: string,
    /** `None` when the path is unset. */
    quantity: Option<int>,
    expiryDate: Option<int>,
    condition: string,
    description: string,
    location: string,
    createdAt: int)

  const Statuses: seq<string> := ["active", "pending", "completed", "cancelled"]
  const DefaultStatus := "active"
  const Conditions: seq<string> := ["new", "like-new", "good"]
  const MaxDescription := 500

  /** The schema's constraints as one conjunction. */
  predicate Valid(d: Donation) {
    && d.medicine != ""
    && d.donorEmail != ""
    && d.status in Statuses
    && d.quantity.Some? && d.quantity.value >= 1
    && d.expiryDate.Some?
    && d.condition in Conditions
    && |d.description| <= MaxDescription
    && d.location != ""
  }

  /** The `status` stored when none is given. */
  function StatusOrDefault(status: Option<string>): (r: string)
    ensures status.None? ==> r == "active" && r in Statuses
    ensures status.Some? ==> r == status.value
  {
    status.GetOr(DefaultStatus)
  }

  /** `required` on a path that is not a string: an unset value fails. */
  function RequiredValue(path: string, value: Option<int>, message: string): (r: seq<Violation>)
    ensures r == [] <==> value.Some?
  {
    if value.None? then [Violation(path, message)] else []
  }

  /** The errors `validate()` collects, in schema order, the first failing validator of each path. */
  function Violations(d: Donation): (r: seq<Violation>)
    ensures r == [] <==> Valid(d)
    ensures d.quantity.Some? && d.quantity.value < 1 ==> Violation("quantity", "Quantity must be at least 1") in r
    ensures |d.description| > 500 ==> Violation("description", "Description cannot be more than 500 characters") in r
    ensures d.condition != "" && d.condition !in Conditions ==> Violation("condition", EnumMessage(d.condition, "condition")) in r
  {
    Required("medicine", d.medicine, "Medicine name is required")
    + Required("donorEmail", d.donorEmail, "Donor email is required")
    + Enum("status", d.status, Statuses)
    + (if d.quantity.None? then [Violation("quantity", "Quantity is required")]
       else Validation.AtLeast("quantity", d.quantity.value, 1, "Quantity must be at least 1"))
    + RequiredValue("expiryDate", d.expiryDate, "Expiry date is required")
    + RequiredEnum("condition", d.condition, Conditions, "Condition is required")
    + AtMostLength("description", d.description, MaxDescription, "Description cannot be more than 500 characters")
    + Required("location", d.location, "Location is required")
  }

  /** The outcome of casting one body value to a path's type. */
  datatype Cast<T> = Unset | Value(value: T) | Failed(error: Violation)

  function CastOption<T>(c: Cast<T>): Option<T> {
    if c.Value? then Some(c.value) else None
  }

  /** Mongoose's `CastError` message. */
  function CastMessage(kind: string, value: string, valueType: string, path: string): string {
    "Cast to " + kind + " failed for value \"" + value + "\" (type " + valueType + ") at path \"" + path + "\""
  }


  /** Casting to a `Number` path: `''` and `null` leave it unset, a string goes through `Number()`, a boolean is 0 or 1. */
  function CastNumber(path: string, v: JsValue): (r: Cast<int>)
    ensures v.JNum? ==> r == Value(v.num)
    ensures v.JStr? && v.str != "" && AllDigits(Trim(v.str)) ==> r.Value?
    ensures r.Failed? ==> r.error.path == path && v.JStr? && ToNumber(v.str).NaN?
  {
    match v
    case JNum(n) => Value(n)
    case JStr(s) =>
      if s == "" then Unset
      else (match ToNumber(s)
            case Finite(n) => Value(n)
            case NaN => Failed(Violation(path, CastMessage("Number", s, "string", path))))
    case JBool(b) => Value(if b then 1 else 0)
    case JNull => Unset
  }

  /** The largest distance from the epoch, in milliseconds, that a JavaScript `Date` can hold. */
  const MaxTimeValue := 8_640_000_000_000_000

  /** Whether `new Date(t)` is a valid date. */
  predicate InTimeRange(t: int) {
    -MaxTimeValue <= t <= MaxTimeValue
  }

  /** Casting a number to a `Date` path: `new Date(n)`, which is an invalid date outside the range. */
  function CastTimestamp(path: string, n: int): (r: Cast<int>)
    ensures r.Value? <==> InTimeRange(n)
    ensures r.Value? ==> r.value == n
    ensures r.Failed? ==> r.error.path == path
  {
    if InTimeRange(n) then Value(n)
    else Failed(Violation(path, CastMessage("date", StringCast(JNum(n)), "number", path)))
  }

  /**
   * Casting to a `Date` path: a number is a timestamp, and one beyond the range of `Date` makes
   * an invalid date, which fails; a non-empty string goes through `parseDate` (`None` for a
   * string `Date` cannot read); a boolean fails; `''` and `null` leave it unset.
   */
  function CastDate(path: string, v: JsValue, parseDate: string -> Option<int>): (r: Cast<int>)
    ensures v.JNum? ==> (r.Value? <==> InTimeRange(v.num))
    ensures v.JNum? && r.Value? ==> r.value == v.num
    ensures v.JStr? && v.str != "" ==> (r.Value? <==> parseDate(v.str).Some?)
    ensures r.Unset? <==> v.JNull? || v == JStr("")
    ensures r.Value? ==> v.JNum? || v.JStr?
    ensures r.Failed? ==> r.error.path == path
  {
    match v
    case JNum(n) =>
      CastTimestamp(path, n)
    case JStr(s) =>
      if s == "" then Unset
      else (match parseDate(s)
            case Some(t) => Value(t)
            case None => Failed(Violation(path, CastMessage("date", s, "string", path))))
    case JBool(b) => Failed(Violation(path, CastMessage("date", if b then "true" else "false", "boolean", path)))
    case JNull => Unset
  }

  /** A valid record with default status is accepted whatever else it holds. */
  lemma DefaultStatusValid(d: Donation)
    requires d.medicine != "" && d.donorEmail != "" && d.quantity.Some? && d.quantity.value >= 1
    requires d.expiryDate.Some? && d.condition in Conditions && |d.description| <= 500 && d.location != ""
    ensures Violations(d.(status := StatusOrDefault(None))) == []
  {
  }
}

=== FILE: donations_api.dfy ===
/**
 * `/api/donations` (src/app/api/donations/route.js). `POST` checks the `token` and `userEmail`
 * cookies, then the body's required fields in order, builds the record with the cookie's address
 * as donor and status `active`, and creates it; `GET` lists the active donations, newest first.
 * The `token` cookie is only tested for presence: no signature is checked.
 */
module DonationsRoute {
  import opened Optional
  import opened Strings
  import opened Seqs
  import opened Js
  import opened Validation
  import opened Donations

  /** `const requiredFields = [...]`, in the order the handler checks them. */
  const RequiredFields: seq<string> := ["medicine", "quantity", "expiryDate", "condition", "location"]

  /** `data[key]`, with a missing key read as `null`. */
  function Get(data: map<string, JsValue>, key: string): JsValue {
    if key in data then data[key] else JNull
  }

  /** The position of the first required field the body does not supply truthily. */
  function FirstMissing(data: map<string, JsValue>): (r: Option<nat>)
    ensures r.Some? ==> r.value < |RequiredFields| && !Supplied(data, RequiredFields[r.value])
    ensures r.Some? ==> forall j :: 0 <= j < r.value ==> Supplied(data, RequiredFields[j])
    ensures r.None? <==> forall j :: 0 <= j < |RequiredFields| ==> Supplied(data, RequiredFields[j])
  {
    FirstIndex(RequiredFields, (f: string) => !Supplied(data, f))
  }

  /** The handler's `for` loop over the required fields, stopping at the first falsy one. */
  method CheckRequired(data: map<string, JsValue>) returns (missing: Option<nat>)
    ensures missing.Some? ==> missing.value < |RequiredFields| && !Supplied(data, RequiredFields[missing.value])
    ensures missing.Some? ==> forall j :: 0 <= j < missing.value ==> Supplied(data, RequiredFields[j])
    ensures missing.None? <==> forall j :: 0 <= j < |RequiredFields| ==> Supplied(data, RequiredFields[j])
  {
    var k := 0;
    while k < |RequiredFields|
      invariant 0 <= k <= |RequiredFields|
      invariant forall j :: 0 <= j < k ==> Supplied(data, RequiredFields[j])
    {
      if !Supplied(data, RequiredFields[k]) {
        return Some(k);
      }
      k := k + 1;
    }
    return None;
  }

  /** The body's `expiryDate` cast to the path's type. */
  function ExpiryCast(data: map<string, JsValue>, parseDate: string -> Option<int>): (r: Cast<int>)
    ensures r.Failed? ==> r.error.path == "expiryDate"
  {
    CastDate("expiryDate", Get(data, "expiryDate"), parseDate)
  }

  /** `{ ...data, donorEmail: userEmail, status: 'active' }` as the schema casts it; `id` and `now` are the new document's. */
  function Build(data: map<string, JsValue>, userEmail: string, id: nat, now: int,
                 parseDate: string -> Option<int>): (d: Donation)
    ensures d.donorEmail == userEmail && d.status == "active" && d.recipient.None?
    ensures d.id == id && d.createdAt == now
    ensures d.medicine == Trim(StringCast(Get(data, "medicine")))
    ensures d.quantity == CastOption(CastNumber("quantity", Get(data, "quantity")))
  {
    var medicine := Trim(StringCast(Get(data, "medicine")));
    Donation(id,
      medicine,
      userEmail,
      None,
      "active",
      CastOption(CastNumber("quantity", Get(data, "quantity"))),
      CastOption(ExpiryCast(data, parseDate)),
      StringCast(Get(data, "condition")),
      StringCast(Get(data, "description")),
      StringCast(Get(data, "location")),
      now)
  }

  /** The cast errors the construction records, in schema order. */
  function CastErrors(data: map<string, JsValue>, parseDate: string -> Option<int>): (r: seq<Violation>)
    ensures forall v :: v in r ==> v.path in ["quantity", "expiryDate"]
  {
    var q := CastNumber("quantity", Get(data, "quantity"));
    var e := ExpiryCast(data, parseDate);
    (if q.Failed? then [q.error] else []) + (if e.Failed? then [e.error] else [])
  }

  /** The `ValidationError`'s entries: the cast errors, then the validators' errors on every other path. */
  function Errors(d: Donation, casts: seq<Violation>): (r: seq<Violation>)
    ensures casts == [] ==> r == Violations(d)
    ensures r == [] <==> casts == [] && Valid(d)
  {
    if casts == [] then Violations(d)
    else casts + Filter(Violations(d), (v: Violation) => forall c | c in casts :: c.path != v.path)
  }

  /** The answers of `POST`; `ValidationFailed` is 400 with `error: 'Validation failed'` and the messages as `details`. */
  datatype Answer = Refused(status: nat, error: string) | ValidationFailed(details: seq<string>) | Created(donation: Donation)
  {
    function Status(): nat {
      match this
      case Refused(s, _) => s
      case ValidationFailed(_) => 400
      case Created(_) => 201
    }
  }

  datatype Posted = Posted(answer: Answer, donations: seq<Donation>)

  /** `POST`: the cookies' presence and value, the parsed body, and the new document's id and creation time. */
  function Post(donations: seq<Donation>, hasToken: bool, userEmail: string, data: map<string, JsValue>,
                id: nat, now: int, parseDate: string -> Option<int>): (p: Posted)
    ensures !hasToken ==> p == Posted(Refused(401, "You must be logged in to create a donation"), donations)
    ensures hasToken && userEmail == "" ==> p == Posted(Refused(401, "User email not found in session"), donations)
    ensures hasToken && userEmail != "" && FirstMissing(data).Some? ==>
      p == Posted(Refused(400, RequiredFields[FirstMissing(data).value] + " is required"), donations)
    ensures !p.answer.Created? ==> p.donations == donations
    ensures p.answer.ValidationFailed? ==> p.answer.details != []
    ensures p.answer.Created? <==>
      hasToken && userEmail != "" && FirstMissing(data).None?
      && CastErrors(data, parseDate) == [] && Valid(Build(data, userEmail, id, now, parseDate))
    ensures p.answer.Created? ==>
      && p.answer.donation == Build(data, userEmail, id, now, parseDate)
      && p.donations == donations + [p.answer.donation]
  {
    if !hasToken then Posted(Refused(401, "You must be logged in to create a donation"), donations)
    else if userEmail == "" then Posted(Refused(401, "User email not found in session"), donations)
    else
      match FirstMissing(data)
      case Some(k) => Posted(Refused(400, RequiredFields[k] + " is required"), donations)
      case None =>
        var d := Build(data, userEmail, id, now, parseDate);
        var errors := Errors(d, CastErrors(data, parseDate));
        if errors != [] then Posted(ValidationFailed(Messages(errors)), donations)
        else Posted(Created(d), donations + [d])
  }

  /** A created donation is valid, carries the cookie's address and status `active`, whatever the body says. */
  lemma CreatedDonationShape(donations: seq<Donation>, userEmail: string, data: map<string, JsValue>,
                             id: nat, now: int, parseDate: string -> Option<int>)
    requires Post(donations, true, userEmail, data, id, now, parseDate).answer.Created?
    ensures var d := Post(donations, true, userEmail, data, id, now, parseDate).answer.donation;
      && Valid(d) && d.donorEmail == userEmail && d.status == "active"
  {
  }

  /** Two bodies agree on every key the handler reads. */
  predicate SameFields(data: map<string, JsValue>, data2: map<string, JsValue>) {
    && Get(data2, "medicine") == Get(data, "medicine")
    && Get(data2, "quantity") == Get(data, "quantity")
    && Get(data2, "expiryDate") == Get(data, "expiryDate")
    && Get(data2, "condition") == Get(data, "condition")
    && Get(data2, "description") == Get(data, "description")
    && Get(data2, "location") == Get(data, "location")
  }

  lemma FirstMissingReadsOnlyFields(data: map<string, JsValue>, data2: map<string, JsValue>)
    requires SameFields(data, data2)
    ensures FirstMissing(data2) == FirstMissing(data)
  {
    forall j | 0 <= j < |RequiredFields|
      ensures Supplied(data2, RequiredFields[j]) == Supplied(data, RequiredFields[j])
    {
      var f := RequiredFields[j];
      assert Get(data2, f) == Get(data, f);
    }
    FirstIndexAgree(RequiredFields, (f: string) => !Supplied(data2, f), (f: string) => !Supplied(data, f));
  }

  /** Two bodies that agree on the keys the handler reads get the same answer. */
  lemma PostReadsOnlyFields(donations: seq<Donation>, hasToken: bool, userEmail: string,
                            data: map<string, JsValue>, data2: map<string, JsValue>,
                            id: nat, now: int, parseDate: string -> Option<int>)
    requires SameFields(data, data2)
    ensures Post(donations, hasToken, userEmail, data2, id, now, parseDate)
         == Post(donations, hasToken, userEmail, data, id, now, parseDate)
  {
    FirstMissingReadsOnlyFields(data, data2);
    BuildReadsOnlyFields(data, data2, userEmail, id, now, parseDate);
  }

  lemma BuildReadsOnlyFields(data: map<string, JsValue>, data2: map<string, JsValue>, userEmail: string,
                             id: nat, now: int, parseDate: string -> Option<int>)
    requires SameFields(data, data2)
    ensures Build(data2, userEmail, id, now, parseDate) == Build(data, userEmail, id, now, parseDate)
    ensures CastErrors(data2, parseDate) == CastErrors(data, parseDate)
  {
    var quantity, expiryDate := Get(data, "quantity"), Get(data, "expiryDate");
    assert Get(data2, "quantity") == quantity && Get(data2, "expiryDate") == expiryDate;
    var q, e := CastNumber("quantity", quantity), ExpiryCast(data, parseDate);
    assert ExpiryCast(data2, parseDate) == e;
    assert CastErrors(data, parseDate) == (if q.Failed? then [q.error] else []) + (if e.Failed? then [e.error] else []);
    assert Get(data2, "medicine") == Get(data, "medicine");
    assert Get(data2, "condition") == Get(data, "condition");
    assert Get(data2, "description") == Get(data, "description");
    assert Get(data2, "location") == Get(data, "location");
  }

  /** Body keys `donorEmail` and `status` have no effect at all. */
  lemma BodyCannotChooseDonorOrStatus(donations: seq<Donation>, hasToken: bool, userEmail: string,
                                      data: map<string, JsValue>, key: string, value: JsValue,
                                      id: nat, now: int, parseDate: string -> Option<int>)
    requires key == "donorEmail" || key == "status"
    ensures Post(donations, hasToken, userEmail, data[key := value], id, now, parseDate)
         == Post(donations, hasToken, userEmail, data, id, now, parseDate)
  {
    var data2 := data[key := value];
    assert "medicine"[0] != key[0] && "quantity"[0] != key[0] && "expiryDate"[0] != key[0];
    assert "condition"[0] != key[0] && "location"[0] != key[0] && "description"[1] != key[1];
    PostReadsOnlyFields(donations, hasToken, userEmail, data, data2, id, now, parseDate);
  }

  /** A quantity of 0 is reported as a missing field, before the schema's minimum is reached. */
  lemma ZeroQuantityIsMissing(donations: seq<Donation>, userEmail: string, data: map<string, JsValue>,
                              id: nat, now: int, parseDate: string -> Option<int>)
    requires userEmail != "" && Supplied(data, "medicine") && "quantity" in data && data["quantity"] == JNum(0)
    ensures Post(donations, true, userEmail, data, id, now, parseDate)
         == Posted(Refused(400, "quantity is required"), donations)
  {
    assert RequiredFields[0] == "medicine" && RequiredFields[1] == "quantity";
    assert !Supplied(data, RequiredFields[1]);
    var r := FirstMissing(data);
    assert r.Some? && r.value <= 1;
    assert r.value == 1;
  }

  /** A quantity below the minimum is among the reported errors whatever the cast errors on `expiryDate`. */
  lemma QuantityErrorReported(d: Donation, casts: seq<Violation>)
    requires d.quantity.Some? && d.quantity.value < 1
    requires forall c | c in casts :: c.path == "expiryDate"
    ensures "Quantity must be at least 1" in Messages(Errors(d, casts))
  {
    var v := Violation("quantity", "Quantity must be at least 1");
    assert v in Violations(d);
    var errors := Errors(d, casts);
    assert v in errors by {
      if casts != [] {
        var rest := Filter(Violations(d), (w: Violation) => forall c | c in casts :: c.path != w.path);
        assert multiset(rest)[v] == multiset(Violations(d))[v] > 0;
        assert v in rest;
      }
    }
    MessageListed(errors, v);
  }

  /** A negative quantity passes the truthiness check and fails the schema's minimum. */
  lemma NegativeQuantityFailsSchema(donations: seq<Donation>, userEmail: string, data: map<string, JsValue>,
                                    id: nat, now: int, parseDate: string -> Option<int>, n: int)
    requires userEmail != "" && n < 0
    requires forall j :: 0 <= j < |RequiredFields| ==> Supplied(data, RequiredFields[j])
    requires "quantity" in data && data["quantity"] == JNum(n)
    ensures var p := Post(donations, true, userEmail, data, id, now, parseDate);
      p.answer.ValidationFailed? && "Quantity must be at least 1" in p.answer.details && p.donations == donations
  {
    assert FirstMissing(data).None?;
    var d := Build(data, userEmail, id, now, parseDate);
    var casts := CastErrors(data, parseDate);
    assert Get(data, "quantity") == JNum(n);
    assert d.quantity == Some(n);
    assert forall c | c in casts :: c.path == "expiryDate";
    QuantityErrorReported(d, casts);
    PostOnCompleteBody(donations, userEmail, data, id, now, parseDate);
  }

  /**
   * A numeric expiry date beyond the range of `Date` is a cast error: the body is refused as a
   * validation failure, with the cast message first, and nothing is stored.
   */
  lemma OutOfRangeExpiryRejected(donations: seq<Donation>, userEmail: string, data: map<string, JsValue>,
                                 id: nat, now: int, parseDate: string -> Option<int>, n: int)
    requires userEmail != "" && !InTimeRange(n)
    requires forall j :: 0 <= j < |RequiredFields| ==> Supplied(data, RequiredFields[j])
    requires "expiryDate" in data && data["expiryDate"] == JNum(n)
    ensures var p := Post(donations, true, userEmail, data, id, now, parseDate);
      p.answer.ValidationFailed? && p.donations == donations
      && CastTimestamp("expiryDate", n).error.message in p.answer.details
  {
    assert FirstMissing(data).None?;
    var casts := CastErrors(data, parseDate);
    assert Get(data, "expiryDate") == JNum(n);
    var e := CastTimestamp("expiryDate", n);
    assert e.Failed? && e.error in casts;
    var d := Build(data, userEmail, id, now, parseDate);
    var errors := Errors(d, casts);
    assert errors == casts + Filter(Violations(d), (v: Violation) => forall c | c in casts :: c.path != v.path);
    assert e.error in errors;
    MessageListed(errors, e.error);
    PostOnCompleteBody(donations, userEmail, data, id, now, parseDate);
  }

  /** Once every required field is there, the answer is decided by the cast and schema errors. */
  lemma PostOnCompleteBody(donations: seq<Donation>, userEmail: string, data: map<string, JsValue>,
                           id: nat, now: int, parseDate: string -> Option<int>)
    requires userEmail != "" && FirstMissing(data).None?
    ensures var d := Build(data, userEmail, id, now, parseDate);
      var errors := Errors(d, CastErrors(data, parseDate));
      Post(donations, true, userEmail, data, id, now, parseDate)
        == if errors != [] then Posted(ValidationFailed(Messages(errors)), donations) else Posted(Created(d), donations + [d])
  {
  }

  predicate IsActive(d: Donation) {
    d.status == "active"
  }

  /** Sorting newest first is ascending order of this key. */
  function NewestFirst(d: Donation): real {
    -(d.createdAt as real)
  }

  /** `GET`: `find({ status: 'active' }).sort({ createdAt: -1 })`. */
  function ListActive(ds: seq<Donation>): (r: seq<Donation>)
    ensures forall d :: d in r <==> d in ds && d.status == "active"
    ensures forall d | d in ds :: multiset(r)[d] == if d.status == "active" then multiset(ds)[d] else 0
    ensures forall i, j :: 0 <= i < j < |r| ==> r[i].createdAt >= r[j].createdAt
  {
    ActiveListed(ds);
    SortBy(Filter(ds, IsActive), NewestFirst)
  }

  /** The sorted active donations: their membership, multiplicity and order. */
  lemma ActiveListed(ds: seq<Donation>)
    ensures var r := SortBy(Filter(ds, IsActive), NewestFirst);
      && (forall d :: d in r <==> d in ds && d.status == "active")
      && (forall d | d in ds :: multiset(r)[d] == if d.status == "active" then multiset(ds)[d] else 0)
      && (forall i, j :: 0 <= i < j < |r| ==> r[i].createdAt >= r[j].createdAt)
  {
    var active := Filter(ds, IsActive);
    var r := SortBy(active, NewestFirst);
    assert multiset(r) == multiset(active);
    forall d
      ensures d in r <==> d in ds && d.status == "active"
    {
      assert d in r <==> d in multiset(r);
      assert d in active <==> d in multiset(active);
      if d in active {
        var k :| 0 <= k < |active| && active[k] == d;
        assert IsActive(active[k]);
        assert multiset(active) <= multiset(ds);
        assert d in multiset(ds);
      }
    }
    forall i, j | 0 <= i < j < |r|
      ensures r[i].createdAt >= r[j].createdAt
    {
      assert NewestFirst(r[i]) <= NewestFirst(r[j]);
    }
  }

  /** The donations collection. */
  class DonationStore {
    var donations: seq<Donation>

    constructor (initial: seq<Donation>)
      ensures donations == initial
    {
      donations := initial;
    }

    /** `POST`: the guards, the required-field loop, then `Donation.create`. */
    method Create(hasToken: bool, userEmail: string, data: map<string, JsValue>, id: nat, now: int,
                  parseDate: string -> Option<int>) returns (answer: Answer)
      modifies this
      ensures Posted(answer, donations) == Post(old(donations), hasToken, userEmail, data, id, now, parseDate)
    {
      if !hasToken {
        return Refused(401, "You must be logged in to create a donation");
      }
      if userEmail == "" {
        return Refused(401, "User email not found in session");
      }
      var missing := CheckRequired(data);
      assert missing == FirstMissing(data);
      if missing.Some? {
        return Refused(400, RequiredFields[missing.value] + " is required");
      }
      PostOnCompleteBody(donations, userEmail, data, id, now, parseDate);
      var d := Build(data, userEmail, id, now, parseDate);
      var errors := Errors(d, CastErrors(data, parseDate));
      if errors != [] {
        return ValidationFailed(Messages(errors));
      }
      donations := donations + [d];
      answer := Created(d);
    }
  }
}

=== FILE: forgot_password.dfy ===
/**
 * `POST /api/auth/forgot-password` (src/app/api/auth/forgot-password/route.js): issue a reset
 * token valid for one hour, save it on the account, and mail a link that carries it.
 * The random token, the clock, the application URL and the mailer's verdict are parameters.
 */
module ForgotPasswordRoute {
  import opened Optional
  import opened Strings
  import opened Crypto
  import opened Validation
  import opened Http
  import opened Users

  /** How long a reset token stays valid: one hour, in milliseconds. */
  const ResetWindow := 3600000

  const ResetSent := "Password reset email sent successfully"
  const ErrorPrefix := "Error sending password reset email: "

  /** `${NEXT_PUBLIC_APP_URL}/reset-password?token=${resetToken}` */
  function ResetLink(appUrl: string, token: string): (link: string)
    ensures StartsWith(link, appUrl)
    ensures |link| >= |token| && link[|link| - |token|..] == token
  {
    appUrl + "/reset-password?token=" + token
  }

  /** The account with the new token and its expiry, as the handler assigns them before saving. */
  function Issue(u: User, token: string, now: int): User {
    u.(resetPasswordToken := Some(token), resetPasswordExpire := Some(now + ResetWindow))
  }

  /**
   * The handler. `mailError` is the message of the error the transporter's `verify` or
   * `sendMail` reported, `None` when the mail went out.
   */
  function ForgotPassword(users: seq<User>, email: string, token: string, now: int, appUrl: string,
                          mailError: Option<string>, c: Primitives, salt: string): (r: Sent)
    ensures email == "" ==> r == Sent(Outcome(Failure(400, "Email is required"), users), None)
    ensures email != "" && FindByEmail(users, email).None? ==>
      r == Sent(Outcome(Failure(404, "No user found with this email address"), users), None)
    ensures r.mail.Some? <==> r.outcome.reply.Success?
    ensures r.outcome.reply.Success? ==> r.outcome.reply == Success(200, ResetSent)
    ensures |r.outcome.users| == |users|
    ensures email != "" && FindByEmail(users, email).Some? ==>
      var i := FindByEmail(users, email).value;
      if !Valid(users[i]) then
        r == Sent(Outcome(Failure(500, ErrorPrefix + ValidationMessage("User", Violations(users[i]))), users), None)
      else
        && r.outcome.users == users[i := Issue(users[i], token, now)]
        && (mailError.None? ==> r.mail == Some(Mail(users[i].email, ResetLink(appUrl, token))))
        && (mailError.Some? ==> r.outcome.reply == Failure(500, ErrorPrefix + mailError.value))
  {
    if email == "" then Sent(Outcome(Failure(400, "Email is required"), users), None)
    else
      match FindByEmail(users, email)
      case None => Sent(Outcome(Failure(404, "No user found with this email address"), users), None)
      case Some(i) =>
        match Save(Some(users[i]), Issue(users[i], token, now), c, salt)
        case Invalid(errors) =>
          Sent(Outcome(Failure(500, ErrorPrefix + ValidationMessage("User", errors)), users), None)
        case Stored(u) =>
          var after := users[i := u];
          match mailError
          case Some(message) => Sent(Outcome(Failure(500, ErrorPrefix + message), after), None)
          case None => Sent(Outcome(Success(200, ResetSent), after), Some(Mail(u.email, ResetLink(appUrl, token))))
  }

  /**
   * Whenever the account's token is saved, and whatever the mailer then does, the stored token
   * is the one the link carries, it expires exactly one hour after `now`, and nothing else on
   * the account or in the collection changes.
   */
  lemma IssuedTokenIsLinked(users: seq<User>, email: string, token: string, now: int, appUrl: string,
                            mailError: Option<string>, c: Primitives, salt: string)
    requires email != "" && FindByEmail(users, email).Some? && Valid(users[FindByEmail(users, email).value])
    ensures var i := FindByEmail(users, email).value;
      var r := ForgotPassword(users, email, token, now, appUrl, mailError, c, salt);
      && |r.outcome.users| == |users|
      && (forall j :: 0 <= j < |users| && j != i ==> r.outcome.users[j] == users[j])
      && r.outcome.users[i].resetPasswordToken == Some(token)
      && r.outcome.users[i].resetPasswordExpire == Some(now + 3600000)
      && r.outcome.users[i].(resetPasswordToken := users[i].resetPasswordToken,
                             resetPasswordExpire := users[i].resetPasswordExpire) == users[i]
      && (r.mail.Some? ==> r.mail.value.link[|r.mail.value.link| - |token|..] == token)
  {
  }

  /** The handler over the store: guards, assignment of the token, `user.save()`, then the mail. */
  method HandleForgotPassword(store: UserStore, email: string, token: string, now: int, appUrl: string,
                              mailError: Option<string>, c: Primitives, salt: string)
    returns (reply: Reply<string>, mail: Option<Mail>)
    modifies store
    ensures Sent(Outcome(reply, store.users), mail) == ForgotPassword(old(store.users), email, token, now, appUrl, mailError, c, salt)
  {
    mail := None;
    if email == "" {
      return Failure(400, "Email is required"), None;
    }
    var found := FindByEmail(store.users, email);
    if found.None? {
      return Failure(404, "No user found with this email address"), None;
    }
    var i := found.value;
    var outcome := store.SaveAt(i, Issue(store.users[i], token, now), c, salt);
    if outcome.Invalid? {
      return Failure(500, ErrorPrefix + ValidationMessage("User", outcome.errors)), None;
    }
    if mailError.Some? {
      return Failure(500, ErrorPrefix + mailError.value), None;
    }
    reply := Success(200, ResetSent);
    mail := Some(Mail(outcome.user.email, ResetLink(appUrl, token)));
  }
}

=== FILE: http.dfy ===
/** The shapes of the JSON handlers' answers and of the session cookie they read. */
module Http {

  /** A response: an error status with its `error` text, or a success status with its body. */
  datatype Reply<T> = Failure(status: nat, error: string) | Success(status: nat, value: T)

  /**
   * The `token` cookie of a request: absent, present but rejected by `jwtVerify` (an exception
   * the handler's `catch` turns into 500), or verified, carrying the `userId` of its payload.
   */
  datatype Auth = NoToken | BadToken | Verified(userId: nat)

  /** A message the mailer accepted: its recipient and the link it carries. */
  datatype Mail = Mail(to: string, link: string)
}

=== FILE: js.dfy ===
/**
 * The JavaScript value semantics the handlers and the listing page depend on:
 * truthiness (`if (!x)`), `Number(string)` and `String.prototype.split`.
 */
module Js {
  import opened Strings

  /** A JSON value as it arrives in a request body. */
  datatype JsValue = JStr(str: string) | JNum(num: int) | JBool(flag: bool) | JNull

  /** JavaScript truthiness: `''`, `0`, `false` and `null` are falsy. */
  predicate Truthy(v: JsValue) {
    match v
    case JStr(s) => s != ""
    case JNum(n) => n != 0
    case JBool(b) => b
    case JNull => false
  }

  /** `!!data[key]`: the key is present and its value truthy (a missing key reads as `undefined`). */
  predicate Supplied(data: map<string, JsValue>, key: string) {
    key in data && Truthy(data[key])
  }

  /** The result of `Number(...)`: a number or `NaN`. */
  datatype Num = NaN | Finite(value: int) {
    /** `!n`: `NaN` and `0` are falsy. */
    predicate Falsy() { NaN? || value == 0 }
  }

  /** `x >= n` and `x <= n` for a number `x`: every comparison with `NaN` is false. */
  predicate AtLeast(x: int, n: Num) { n.Finite? && x >= n.value }
  predicate AtMost(x: int, n: Num) { n.Finite? && x <= n.value }

  predicate IsDigit(c: char) { '0' <= c <= '9' }

  predicate AllDigits(s: string) { forall i :: 0 <= i < |s| ==> IsDigit(s[i]) }

  function DigitsValue(s: string): nat
    requires AllDigits(s)
  {
    if s == [] then 0 else 10 * DigitsValue(s[..|s| - 1]) + (s[|s| - 1] as int - '0' as int)
  }

  /**
   * `Number(s)` for a string: surrounding white space is ignored, the empty string is 0,
   * a run of decimal digits is its value, anything else is `NaN`.
   */
  function ToNumber(s: string): Num {
    var t := Trim(s);
    if t == "" then Finite(0)
    else if AllDigits(t) then Finite(DigitsValue(t))
    else NaN
  }

  /** A non-empty string that is not a number (such as `2000+`) converts to `NaN`. */
  lemma ToNumberNaN(s: string, i: nat)
    requires Trim(s) == s && i < |s| && !IsDigit(s[i])
    ensures ToNumber(s) == NaN
  {
  }

  /** `String(n)` for a whole number: its decimal digits, with a leading `-` when negative. */
  function IntToString(n: int): (s: string)
    ensures n >= 0 ==> AllDigits(s) && s != []
    decreases if n < 0 then 1 - n else n
  {
    if n < 0 then "-" + IntToString(-n)
    else if n < 10 then [('0' as int + n) as char]
    else IntToString(n / 10) + [('0' as int + n % 10) as char]
  }

  /** `Number(String(n))` gives `n` back for every whole number `n >= 0`. */
  lemma {:induction false} IntToStringRoundTrip(n: nat)
    ensures ToNumber(IntToString(n)) == Finite(n)
  {
    var s := IntToString(n);
    DigitsValueOf(n);
    TrimStartOfUnpadded(s);
    TrimEndOfUnpadded(s);
  }

  lemma {:induction false} DigitsValueOf(n: nat)
    ensures DigitsValue(IntToString(n)) == n
  {
    var s := IntToString(n);
    if n >= 10 {
      DigitsValueOf(n / 10);
      assert s[..|s| - 1] == IntToString(n / 10);
    }
  }

  /** Mongoose's cast of a body value to a `String` path. */
  function StringCast(v: JsValue): (s: string)
    ensures v.JStr? ==> s == v.str
    ensures v.JNum? && v.num >= 0 ==> ToNumber(s) == Finite(v.num)
  {
    match v
    case JStr(s) => s
    case JNum(n) =>
      if n >= 0 then IntToStringRoundTrip(n); IntToString(n) else IntToString(n)
    case JBool(b) => if b then "true" else "false"
    case JNull => ""
  }

  /** `s.split(sep)` for a one-character separator. */
  function Split(s: string, sep: char): (parts: seq<string>)
    ensures |parts| >= 1
    ensures forall i :: 0 <= i < |parts| ==> sep !in parts[i]
  {
    if s == [] then [""]
    else if s[0] == sep then [""] + Split(s[1..], sep)
    else
      var rest := Split(s[1..], sep);
      [[s[0]] + rest[0]] + rest[1..]
  }

  lemma JoinFirstExtended(c: char, parts: seq<string>, sep: string)
    requires |parts| >= 1
    ensures Join([[c] + parts[0]] + parts[1..], sep) == [c] + Join(parts, sep)
  {
    var ext := [[c] + parts[0]] + parts[1..];
    if |parts| > 1 {
      assert ext[1..] == parts[1..];
    }
  }

  /** Splitting and joining with the same separator gives back the input. */
  lemma {:induction false} SplitJoin(s: string, sep: char)
    ensures Join(Split(s, sep), [sep]) == s
    decreases |s|
  {
    if s != [] {
      SplitJoin(s[1..], sep);
      var rest := Split(s[1..], sep);
      if s[0] == sep {
        var parts := [""] + rest;
        assert parts[1..] == rest;
        assert Join(parts, [sep]) == "" + [sep] + Join(rest, [sep]);
        assert s == [s[0]] + s[1..];
      } else {
        JoinFirstExtended(s[0], rest, [sep]);
        assert s == [s[0]] + s[1..];
      }
    }
  }

  /** A string without the separator splits into itself alone. */
  lemma {:induction false} SplitWithoutSeparator(s: string, sep: char)
    requires sep !in s
    ensures Split(s, sep) == [s]
    decreases |s|
  {
    if s != [] {
      assert sep !in s[1..];
      SplitWithoutSeparator(s[1..], sep);
      assert s == [s[0]] + s[1..];
    }
  }

  /** `(a + sep + b).split(sep)` is `[a, b]` when neither part contains the separator. */
  lemma {:induction false} SplitAround(a: string, b: string, sep: char)
    requires sep !in a && sep !in b
    ensures Split(a + [sep] + b, sep) == [a, b]
    decreases |a|
  {
    if a == [] {
      assert a + [sep] + b == [sep] + b;
      assert ([sep] + b)[1..] == b;
      SplitWithoutSeparator(b, sep);
    } else {
      var s := a + [sep] + b;
      assert s[0] == a[0] && s[1..] == a[1..] + [sep] + b;
      assert sep !in a[1..];
      SplitAround(a[1..], b, sep);
      assert [a[0]] + a[1..] == a;
    }
  }
}

=== FILE: login.dfy ===
/**
 * `POST /api/auth/login` (src/app/api/auth/login/route.js): a lookup and a password comparison.
 * The handler reads the collection and never writes it, so it is a function of the collection.
 */
module LoginRoute {
  import opened Optional
  import opened Strings
  import opened Crypto
  import opened Http
  import opened Users
  import SignupRoute

  /** The 200 body's `user` and the `token` cookie. */
  datatype Session = Session(user: PublicUser, token: string)

  const InvalidCredentials := "Invalid credentials"

  function Login(users: seq<User>, email: string, password: string, c: Primitives): (r: Reply<Session>)
    ensures email == "" || password == "" ==> r == Failure(400, "Please provide email and password")
    ensures r.Failure? ==> r.status == 400 || r == Failure(401, InvalidCredentials)
    ensures r.Success? <==>
      email != "" && password != "" && FindByEmail(users, email).Some?
      && c.compare(password, users[FindByEmail(users, email).value].password)
    ensures r.Success? ==>
      var u := users[FindByEmail(users, email).value];
      r == Success(200, Session(Public(u), c.sign(u.id)))
  {
    if email == "" || password == "" then Failure(400, "Please provide email and password")
    else
      match FindByEmail(users, email)
      case None => Failure(401, InvalidCredentials)
      case Some(i) =>
        if !c.compare(password, users[i].password) then Failure(401, InvalidCredentials)
        else Success(200, Session(Public(users[i]), c.sign(users[i].id)))
  }

  /** An unknown address and a wrong password get the very same answer. */
  lemma UniformRejection(users: seq<User>, unknown: string, known: string, password: string, wrong: string, c: Primitives)
    requires unknown != "" && known != "" && password != "" && wrong != ""
    requires FindByEmail(users, unknown).None?
    requires FindByEmail(users, known).Some? && !c.compare(wrong, users[FindByEmail(users, known).value].password)
    ensures Login(users, unknown, password, c) == Login(users, known, wrong, c) == Failure(401, "Invalid credentials")
  {
  }

  /** The answer depends on the address only through whether it is empty and which account it finds. */
  lemma LoginByLookup(users: seq<User>, e1: string, e2: string, password: string, c: Primitives)
    requires e1 != "" && e2 != "" && FindByEmail(users, e1) == FindByEmail(users, e2)
    ensures Login(users, e1, password, c) == Login(users, e2, password, c)
  {
  }

  /** The address is matched after trimming and lowercasing, as the stored one was. */
  lemma LoginIgnoresAddressCase(users: seq<User>, email: string, password: string, c: Primitives)
    requires Trim(email) != ""
    ensures Login(users, ToLower(email), password, c) == Login(users, Trim(email), password, c)
  {
    FindByEmailIgnoresCase(users, email);
    assert ToLower(email) != "" by {
      assert |TrimStart(email)| <= |email|;
    }
    LoginByLookup(users, ToLower(email), Trim(email), password, c);
  }

  /** Signing up and then logging in with the same address and password succeeds, for the new account. */
  lemma SignupThenLogin(users: seq<User>, b: SignupRoute.SignupRequest, id: ObjectId, c: Primitives, salt: string)
    requires Sound(c) && !StartsWith(b.password, "$2")
    requires SignupRoute.Signup(users, b, id, c, salt).reply.Success?
    ensures var after := SignupRoute.Signup(users, b, id, c, salt).users;
      Login(after, b.email, b.password, c) == Success(200, Session(Public(after[|users|]), c.sign(id)))
  {
    var after := SignupRoute.Signup(users, b, id, c, salt).users;
    var u := after[|users|];
    assert after == users + [u];
    FindByEmailAppended(users, u, b.email);
    assert u.password == c.hash(b.password, salt);
  }

  /** A `$2`-prefixed signup password other than a 60-character one is stored unhashed, and no login can ever succeed with it. */
  lemma DollarTwoSignupLocksOut(users: seq<User>, b: SignupRoute.SignupRequest, id: ObjectId, c: Primitives, salt: string, attempt: string)
    requires Sound(c) && StartsWith(b.password, "$2") && |b.password| != BcryptLength
    requires SignupRoute.Signup(users, b, id, c, salt).reply.Success?
    ensures var after := SignupRoute.Signup(users, b, id, c, salt).users;
      after[|users|].password == b.password
      && Login(after, b.email, attempt, c).Failure?
  {
    var after := SignupRoute.Signup(users, b, id, c, salt).users;
    assert forall j :: 0 <= j < |users| ==> after[j] == users[j];
    assert FindByEmail(after, b.email) == Some(|users|);
  }
}

=== FILE: medicine.dfy ===
/**
 * The medicine record (src/models/Medicine.js): its field constraints, the derived values
 * `isExpired`, `remainingQuantity` and `trustScore`, the availability queries, and the
 * status lifecycle of a document (the pre-save expiry override and `markAsDonated`).
 *
 * Times are whole milliseconds since the epoch; `now` is the clock reading of the call.
 */
module Medicines {
  import opened Optional
  import opened Seqs
  import Js
  import opened Validation

  type ObjectId = nat

  /** The `status` enum; a value outside it cannot be represented. */
  datatype Status = Available | Reserved | Donated | Expired

  /** One entry of `ratings` (the rating sub-schema). */
  datatype Rating = Rating(userId: ObjectId, value: int, createdAt: int)

  /** The persisted fields of a medicine, as stored after the schema's `trim` setters. */
  datatype Medicine = Medicine(
    id: ObjectId,
    name: string,
    category: string,
    description: string,
    quantity: int,
    expiryDate: int,
    condition: string,
    originalPrice: Option<int>,
    isFree: bool,
    location: string,
    status: Status,
    donor: ObjectId,
    recipient: Option<ObjectId>,
    packaging: string,
    dosageForm: string,
    strength: string,
    manufacturer: string,
    verificationStatus: string,
    ratings: seq<Rating>,
    createdAt: int)

  const Categories: seq<string> := [
    "Pain Relief", "Antibiotics", "Cardiovascular", "Diabetes", "Respiratory",
    "Gastrointestinal", "Mental Health", "Vitamins & Supplements", "First Aid", "Other"
  ]
  const Conditions: seq<string> := ["new", "like-new", "good"]
  const Packagings: seq<string> := ["sealed", "opened", "partial"]
  const DosageForms: seq<string> := [
    "tablet", "capsule", "liquid", "injection", "cream", "ointment", "drops", "inhaler", "powder", "other"
  ]
  const VerificationStatuses: seq<string> := ["pending", "verified", "rejected"]

  /** The rating sub-schema: a value in 1..5. */
  predicate ValidRating(r: Rating) { 1 <= r.value <= 5 }

  function RatingViolations(rs: seq<Rating>, from: nat): (r: seq<Violation>)
    ensures r == [] <==> forall i :: 0 <= i < |rs| ==> ValidRating(rs[i])
  {
    if rs == [] then []
    else
      var path := "ratings." + Js.IntToString(from) + ".rating";
      var v := rs[0].value;
      var here :=
        if v < 1 then [Violation(path, "Path `rating` (" + Js.IntToString(v) + ") is less than minimum allowed value (1).")]
        else if v > 5 then [Violation(path, "Path `rating` (" + Js.IntToString(v) + ") is more than maximum allowed value (5).")]
        else [];
      var rest := RatingViolations(rs[1..], from + 1);
      assert forall i :: 1 <= i < |rs| ==> rs[i] == rs[1..][i - 1];
      here + rest
  }

  /**
   * The schema's constraints, field by field, as an independent conjunction: required strings
   * are non-empty, enums hold, quantity is at least 1, the expiry date lies strictly after `now`,
   * a price if present is not negative, and every rating lies in 1..5.
   */
  predicate Valid(m: Medicine, now: int) {
    && m.name != ""
    && m.category in Categories
    && m.description != ""
    && m.quantity >= 1
    && m.expiryDate > now
    && m.condition in Conditions
    && (m.originalPrice.Some? ==> m.originalPrice.value >= 0)
    && m.location != ""
    && m.packaging in Packagings
    && m.dosageForm in DosageForms
    && m.strength != ""
    && m.manufacturer != ""
    && m.verificationStatus in VerificationStatuses
    && forall i :: 0 <= i < |m.ratings| ==> ValidRating(m.ratings[i])
  }

  /** The errors `validate()` collects, in schema order; none exactly when the record is valid. */
  function ValidationErrors(m: Medicine, now: int): (r: seq<Violation>)
    ensures r == [] <==> Valid(m, now)
    ensures m.quantity < 1 ==> Violation("quantity", "Quantity must be at least 1") in r
    ensures m.expiryDate <= now ==> Violation("expiryDate", "Expiry date must be in the future") in r
    ensures m.originalPrice.Some? && m.originalPrice.value < 0 ==> Violation("originalPrice", "Price cannot be negative") in r
  {
    Required("name", m.name, "Medicine name is required")
    + RequiredEnum("category", m.category, Categories, "Category is required")
    + Required("description", m.description, "Description is required")
    + Validation.AtLeast("quantity", m.quantity, 1, "Quantity must be at least 1")
    + (if m.expiryDate <= now then [Violation("expiryDate", "Expiry date must be in the future")] else [])
    + RequiredEnum("condition", m.condition, Conditions, "Condition is required")
    + (if m.originalPrice.Some? && m.originalPrice.value < 0 then [Violation("originalPrice", "Price cannot be negative")] else [])
    + Required("location", m.location, "Location is required")
    + RequiredEnum("packaging", m.packaging, Packagings, "Packaging information is required")
    + RequiredEnum("dosageForm", m.dosageForm, DosageForms, "Dosage form is required")
    + Required("strength", m.strength, "Medicine strength is required")
    + Required("manufacturer", m.manufacturer, "Manufacturer name is required")
    + Enum("verificationStatus", m.verificationStatus, VerificationStatuses)
    + RatingViolations(m.ratings, 0)
  }

  /** The field bounds: ratings in 1..5, quantity at least 1, no negative price, expiry strictly in the future. */
  lemma FieldBounds(m: Medicine, now: int, i: nat)
    requires Valid(m, now) && i < |m.ratings|
    ensures 1 <= m.ratings[i].value <= 5 && m.quantity >= 1 && m.expiryDate > now
    ensures m.originalPrice.GetOr(0) >= 0
  {
  }

  /** A rating of 0 or 6 is rejected, whatever else the record holds. */
  lemma RatingOutOfRangeRejected(m: Medicine, now: int, i: nat)
    requires i < |m.ratings| && (m.ratings[i].value < 1 || m.ratings[i].value > 5)
    ensures ValidationErrors(m, now) != []
  {
    assert !ValidRating(m.ratings[i]);
  }

  // ---- virtuals -------------------------------------------------------------------------

  /** `isExpired`: the expiry date lies strictly before `now`. */
  predicate IsExpired(m: Medicine, now: int) {
    m.expiryDate < now
  }

  /** `remainingQuantity`: the quantity while available, otherwise nothing. */
  function RemainingQuantity(m: Medicine): (q: int)
    ensures m.status == Available ==> q == m.quantity
    ensures m.status != Available ==> q == 0
  {
    if m.status == Available then m.quantity else 0
  }

  /** For a valid record something remains exactly while it is available. */
  lemma RemainingWhileAvailable(m: Medicine, now: int)
    requires Valid(m, now)
    ensures RemainingQuantity(m) > 0 <==> m.status == Available
  {
  }

  function SumRatings(rs: seq<Rating>): int {
    if rs == [] then 0 else rs[0].value + SumRatings(rs[1..])
  }

  /** Ratings in 1..5 sum to between one and five times their count. */
  lemma {:induction false} SumRatingsBounds(rs: seq<Rating>)
    requires forall i :: 0 <= i < |rs| ==> ValidRating(rs[i])
    ensures |rs| <= SumRatings(rs) <= 5 * |rs|
  {
    if rs != [] {
      assert forall i :: 0 <= i < |rs[1..]| ==> rs[1..][i] == rs[i + 1];
      SumRatingsBounds(rs[1..]);
    }
  }

  /** The arithmetic mean of the rating values. */
  function MeanRating(rs: seq<Rating>): real
    requires rs != []
  {
    SumRatings(rs) as real / |rs| as real
  }

  /** `parseFloat(x.toFixed(1))` for x >= 0: the nearest multiple of 0.1, halves rounded up. */
  function RoundToTenth(x: real): (r: real)
    ensures x - 0.05 < r <= x + 0.05
    ensures r * 10.0 == (r * 10.0).Floor as real
  {
    (x * 10.0 + 0.5).Floor as real / 10.0
  }

  lemma RoundToTenthWithin(x: real, lo: int, hi: int)
    requires lo as real <= x <= hi as real
    ensures lo as real <= RoundToTenth(x) <= hi as real
  {
    var k := (x * 10.0 + 0.5).Floor;
    assert k >= 10 * lo by {
      assert (10 * lo) as real <= x * 10.0 + 0.5;
    }
    assert k <= 10 * hi;
  }

  /**
   * `trustScore`: 0 without ratings, otherwise the mean rating rounded to one decimal, which
   * lies within 0.05 of the mean and, for ratings in 1..5, within [1, 5].
   */
  function TrustScore(rs: seq<Rating>): (score: real)
    ensures rs == [] ==> score == 0.0
    ensures rs != [] ==> MeanRating(rs) - 0.05 < score <= MeanRating(rs) + 0.05
    ensures score * 10.0 == (score * 10.0).Floor as real
    ensures rs != [] && (forall i :: 0 <= i < |rs| ==> ValidRating(rs[i])) ==> 1.0 <= score <= 5.0
  {
    if rs == [] then 0.0
    else
      MeanRatingBounds(rs);
      RoundToTenth(MeanRating(rs))
  }

  lemma QuotientBounds(sum: real, n: real)
    requires 0.0 < n && n <= sum <= 5.0 * n
    ensures 1.0 <= sum / n <= 5.0
  {
    var q := sum / n;
    assert q * n == sum;
    assert (q - 1.0) * n >= 0.0;
    assert (5.0 - q) * n >= 0.0;
  }

  /** The mean of ratings in 1..5, and its one-decimal rounding, lie in [1, 5]. */
  lemma MeanRatingBounds(rs: seq<Rating>)
    requires rs != []
    ensures (forall i :: 0 <= i < |rs| ==> ValidRating(rs[i])) ==>
      1.0 <= MeanRating(rs) <= 5.0 && 1.0 <= RoundToTenth(MeanRating(rs)) <= 5.0
  {
    if forall i :: 0 <= i < |rs| ==> ValidRating(rs[i]) {
      SumRatingsBounds(rs);
      var sum, n := SumRatings(rs) as real, |rs| as real;
      assert n <= sum <= 5.0 * n;
      QuotientBounds(sum, n);
      RoundToTenthWithin(MeanRating(rs), 1, 5);
    }
  }

  /** Three ratings 4, 4 and 5 average 4.333… and display as 4.3; 4 and 5 average exactly 4.5. */
  lemma TrustScoreExamples()
    ensures TrustScore([Rating(1, 4, 0), Rating(2, 4, 0), Rating(3, 5, 0)]) == 4.3
    ensures TrustScore([Rating(1, 4, 0), Rating(2, 5, 0)]) == 4.5
  {
    var a := [Rating(1, 4, 0), Rating(2, 4, 0), Rating(3, 5, 0)];
    assert SumRatings(a) == 13;
    assert (13.0 / 3.0 * 10.0 + 0.5).Floor == 43;
    var b := [Rating(1, 4, 0), Rating(2, 5, 0)];
    assert SumRatings(b) == 9;
  }

  // ---- availability queries ---------------------------------------------------------------

  /** The query `{ status: 'available', expiryDate: { $gt: now } }`. */
  predicate IsAvailable(m: Medicine, now: int) {
    m.status == Available && m.expiryDate > now
  }

  /** `Medicine.findAvailable()` over the collection in its natural order. */
  function FindAvailable(ms: seq<Medicine>, now: int): (r: seq<Medicine>)
    ensures forall m :: m in r <==> m in ms && IsAvailable(m, now)
    ensures IsSubsequence(r, ms)
  {
    FilterIsSubsequence(ms, (m: Medicine) => IsAvailable(m, now));
    Filter(ms, (m: Medicine) => IsAvailable(m, now))
  }

  /** `Medicine.findByCategory(category)`: the same query with an equal category. */
  function FindByCategory(ms: seq<Medicine>, category: string, now: int): (r: seq<Medicine>)
    ensures forall m :: m in r <==> m in ms && m.category == category && IsAvailable(m, now)
    ensures IsSubsequence(r, ms)
  {
    FilterIsSubsequence(ms, (m: Medicine) => m.category == category && IsAvailable(m, now));
    Filter(ms, (m: Medicine) => m.category == category && IsAvailable(m, now))
  }

  /** Whatever is returned as available is not expired, and its remaining quantity is its quantity. */
  lemma AvailableNotExpired(ms: seq<Medicine>, now: int, m: Medicine)
    requires m in FindAvailable(ms, now)
    ensures !IsExpired(m, now) && RemainingQuantity(m) == m.quantity
  {
  }

  /** `findByCategory` is `findAvailable` narrowed to one category, order included. */
  lemma FindByCategoryNarrows(ms: seq<Medicine>, category: string, now: int)
    ensures FindByCategory(ms, category, now) == Filter(FindAvailable(ms, now), (m: Medicine) => m.category == category)
  {
    FilterFilter(ms, (m: Medicine) => IsAvailable(m, now), (m: Medicine) => m.category == category,
      (m: Medicine) => m.category == category && IsAvailable(m, now));
  }

  /** At `expiryDate == now` a medicine is not expired, yet it is neither available nor valid. */
  lemma ExpiryBoundary(m: Medicine, now: int)
    requires m.expiryDate == now
    ensures !IsExpired(m, now) && !IsAvailable(m, now) && ValidationErrors(m, now) != []
  {
  }

  // ---- the status lifecycle ----------------------------------------------------------------

  /** What the pre-save hook makes of the record: status `expired` once past the expiry date, nothing else changed. */
  function ExpiryOverride(m: Medicine, now: int): (r: Medicine)
    ensures r.status == (if IsExpired(m, now) then Expired else m.status)
    ensures r.(status := m.status) == m
  {
    if m.expiryDate < now then m.(status := Expired) else m
  }

  /**
   * Validation runs before the `save` hooks, and every required path is checked on every save,
   * so a record that passes validation is never rewritten by the expiry override.
   */
  lemma OverrideIdleAfterValidation(m: Medicine, now: int)
    requires ValidationErrors(m, now) == []
    ensures ExpiryOverride(m, now) == m
  {
  }

  /** The outcome of `save()`: stored, or rejected with the collected errors. */
  datatype SaveResult = Saved | Rejected(errors: seq<Violation>)

  /** A medicine document: the fields held in memory and what the collection holds for it. */
  class MedicineDocument {
    var fields: Medicine
    var stored: Option<Medicine>

    constructor (m: Medicine)
      ensures fields == m && stored == None
    {
      fields := m;
      stored := None;
    }

    /** The `pre('save')` hook: marks the in-memory record `expired` once its expiry date has passed. */
    method PreSaveHook(now: int)
      modifies this
      ensures fields == ExpiryOverride(old(fields), now)
      ensures stored == old(stored)
    {
      if fields.expiryDate < now {
        fields := fields.(status := Expired);
      }
    }

    /** `save()`: validate, then run the hook, then store the record. */
    method Save(now: int) returns (result: SaveResult)
      modifies this
      ensures result == (if Valid(old(fields), now) then Saved else Rejected(ValidationErrors(old(fields), now)))
      ensures fields == (if result.Saved? then ExpiryOverride(old(fields), now) else old(fields))
      ensures stored == (if result.Saved? then Some(fields) else old(stored))
      ensures result.Saved? ==> fields == old(fields) && IsAvailable(fields, now) == (fields.status == Available)
    {
      var errors := ValidationErrors(fields, now);
      if errors != [] {
        return Rejected(errors);
      }
      PreSaveHook(now);
      OverrideIdleAfterValidation(old(fields), now);
      stored := Some(fields);
      result := Saved;
    }

    /** `markAsDonated(recipientId)`: set status and recipient in memory, then save. */
    method MarkAsDonated(recipientId: ObjectId, now: int) returns (result: SaveResult)
      modifies this
      ensures fields == old(fields).(status := Donated, recipient := Some(recipientId))
      ensures result.Saved? <==> Valid(old(fields), now)
      ensures stored == (if result.Saved? then Some(fields) else old(stored))
    {
      fields := fields.(status := Donated, recipient := Some(recipientId));
      DonationKeepsValidity(old(fields), recipientId, now);
      result := Save(now);
    }
  }

  /** Status and recipient take no part in validation, so marking as donated saves exactly when the record was valid. */
  lemma DonationKeepsValidity(m: Medicine, recipientId: ObjectId, now: int)
    ensures Valid(m.(status := Donated, recipient := Some(recipientId)), now) == Valid(m, now)
  {
  }

  /** A medicine whose expiry date has been reached cannot be marked as donated: the save is rejected. */
  lemma DonatingExpiredRejected(m: Medicine, recipientId: ObjectId, now: int)
    requires m.expiryDate <= now
    ensures Violation("expiryDate", "Expiry date must be in the future")
      in ValidationErrors(m.(status := Donated, recipient := Some(recipientId)), now)
  {
  }

  /** A donated medicine leaves the available list and has nothing remaining. */
  lemma DonatedLeavesAvailable(m: Medicine, recipientId: ObjectId, now: int, ms: seq<Medicine>)
    ensures m.(status := Donated, recipient := Some(recipientId)) !in FindAvailable(ms, now)
    ensures RemainingQuantity(m.(status := Donated, recipient := Some(recipientId))) == 0
  {
  }
}

=== FILE: medicines_api.dfy ===
/**
 * `GET /api/medicines` (src/app/api/medicines/route.js): the available, unexpired medicines,
 * newest first, with the donor populated, or an error status.
 *
 * The formatted item keeps every field of the record (the spread `...medicine`); turning ids
 * and dates into strings changes their representation only, so a listing carries the record as
 * is, next to the populated donor.
 */
module MedicinesApi {
  import opened Optional
  import opened Seqs
  import opened Medicines

  /** The populated donor: `populate('donor', 'name email')`. */
  datatype DonorInfo = DonorInfo(id: ObjectId, name: string, email: string)

  /** One formatted medicine of the response; `donor` is `null` when the referenced user is gone. */
  datatype Listing = Listing(medicine: Medicine, donor: Option<DonorInfo>)

  /** Where the handler can fail; `Thrown(name)` is an error reaching the outer `catch`. */
  datatype Fault = NoFault | ConnectFault | QueryFault | FormatFault | Thrown(name: string)

  datatype Response = Items(items: seq<Listing>) | Failure(status: nat, error: string)

  /** The outer `catch`: the error's `name` decides the status. */
  function OuterStatus(name: string): (status: nat)
    ensures status == 400 <==> name == "ValidationError"
    ensures status == 503 <==> name == "MongoError" || name == "MongoServerError"
    ensures status == 400 || status == 503 || status == 500
  {
    if name == "ValidationError" then 400
    else if name == "MongoError" || name == "MongoServerError" then 503
    else 500
  }

  /** The outer `catch`: the error's `name` decides the message, alongside its status. */
  function OuterMessage(name: string): (message: string)
    ensures message == "Invalid data format" <==> name == "ValidationError"
    ensures message == "Database error" <==> name == "MongoError" || name == "MongoServerError"
    ensures message == "Failed to fetch medicines" <==> OuterStatus(name) == 500
  {
    if name == "ValidationError" then "Invalid data format"
    else if name == "MongoError" || name == "MongoServerError" then "Database error"
    else "Failed to fetch medicines"
  }

  /** `.sort({ createdAt: -1 })`: newest first. */
  function Newest(ms: seq<Medicine>): (r: seq<Medicine>)
    ensures multiset(r) == multiset(ms)
    ensures forall i, j :: 0 <= i < j < |r| ==> r[i].createdAt >= r[j].createdAt
  {
    var r := SortBy(ms, (m: Medicine) => -(m.createdAt as real));
    assert forall i, j :: 0 <= i < j < |r| ==> -(r[i].createdAt as real) <= -(r[j].createdAt as real);
    r
  }

  /** `populate` then format one record. */
  function Format(donors: map<ObjectId, DonorInfo>, m: Medicine): (l: Listing)
    ensures l.medicine == m
    ensures l.donor.Some? <==> m.donor in donors
  {
    Listing(m, if m.donor in donors then Some(donors[m.donor]) else None)
  }

  /** The handler, given the collection, the users it populates from, the clock and where (if anywhere) it fails. */
  function Get(ms: seq<Medicine>, donors: map<ObjectId, DonorInfo>, now: int, fault: Fault): (resp: Response)
    ensures fault == ConnectFault ==> resp == Failure(503, "Database connection failed")
    ensures fault == QueryFault ==> resp == Failure(500, "Failed to fetch medicines from database")
    ensures fault == FormatFault ==> resp == Failure(500, "Failed to format medicine data")
    ensures fault.Thrown? ==> resp == Failure(OuterStatus(fault.name), OuterMessage(fault.name))
    ensures resp.Items? <==> fault == NoFault
  {
    match fault
    case ConnectFault => Failure(503, "Database connection failed")
    case QueryFault => Failure(500, "Failed to fetch medicines from database")
    case FormatFault => Failure(500, "Failed to format medicine data")
    case Thrown(name) => Failure(OuterStatus(name), OuterMessage(name))
    case NoFault => Items(Map(Newest(FindAvailable(ms, now)), (m: Medicine) => Format(donors, m)))
  }

  /** The query and the sort keep exactly the available medicines. */
  lemma NewestAvailable(ms: seq<Medicine>, now: int)
    ensures forall m :: m in Newest(FindAvailable(ms, now)) <==> m in ms && IsAvailable(m, now)
  {
    var found := FindAvailable(ms, now);
    var sorted := Newest(found);
    forall m
      ensures m in sorted <==> m in found
    {
      assert m in sorted <==> m in multiset(sorted);
      assert m in found <==> m in multiset(found);
    }
  }

  /** Every listed medicine is available and not yet expired, and every such medicine is listed. */
  lemma ListsExactlyAvailable(ms: seq<Medicine>, donors: map<ObjectId, DonorInfo>, now: int)
    ensures forall i :: 0 <= i < |Get(ms, donors, now, NoFault).items| ==>
      var m := Get(ms, donors, now, NoFault).items[i].medicine;
      IsAvailable(m, now) && !IsExpired(m, now) && m in ms
    ensures forall m :: m in ms && IsAvailable(m, now) ==>
      exists i :: 0 <= i < |Get(ms, donors, now, NoFault).items| && Get(ms, donors, now, NoFault).items[i].medicine == m
  {
    var sorted := Newest(FindAvailable(ms, now));
    NewestAvailable(ms, now);
    var items := Map(sorted, (m: Medicine) => Format(donors, m));
    assert Get(ms, donors, now, NoFault).items == items;
    assert |items| == |sorted|;
    forall i | 0 <= i < |items|
      ensures items[i].medicine == sorted[i] && sorted[i] in sorted
    {
    }
    forall m | m in ms && IsAvailable(m, now)
      ensures exists i :: 0 <= i < |items| && items[i].medicine == m
    {
      var i :| 0 <= i < |sorted| && sorted[i] == m;
      assert items[i].medicine == m;
    }
  }

  /** Newest first, one item per available record, with each ratings list carried over whole. */
  lemma ListingShape(ms: seq<Medicine>, donors: map<ObjectId, DonorInfo>, now: int)
    ensures var items := Get(ms, donors, now, NoFault).items;
      && |items| == |FindAvailable(ms, now)|
      && (forall i, j :: 0 <= i < j < |items| ==> items[i].medicine.createdAt >= items[j].medicine.createdAt)
      && (forall i :: 0 <= i < |items| ==> |items[i].medicine.ratings| == |Newest(FindAvailable(ms, now))[i].ratings|)
  {
    var sorted := Newest(FindAvailable(ms, now));
    assert |multiset(sorted)| == |multiset(FindAvailable(ms, now))|;
  }
}

=== FILE: medicines_page.dfy ===
/**
 * The client-side listing pipeline of the medicines page (src/app/medicines/page.jsx):
 * the `filteredMedicines` predicate over the fetched listings and the `sortedMedicines`
 * comparator applied to a copy of the filtered list.
 */
module MedicinesPage {
  import opened Optional
  import opened Strings
  import opened Seqs
  import opened Js
  import opened Medicines
  import opened MedicinesApi

  /** The page's filter state; `availability` starts on. */
  datatype Filters = Filters(category: string, priceRange: string, condition: string, availability: bool)

  /** The price of a listing as the page reads it: `originalPrice || 0`. */
  function Price(l: Listing): int {
    l.medicine.originalPrice.GetOr(0)
  }

  /** The donor's name, or `''` when the donor is not populated. */
  function DonorName(l: Listing): string {
    match l.donor
    case Some(d) => d.name
    case None => ""
  }

  /** `matchesSearch`: an empty query matches; otherwise a case-insensitive substring of name, category or donor name. */
  predicate MatchesSearch(query: string, l: Listing) {
    var q := ToLower(query);
    query == ""
    || Includes(ToLower(l.medicine.name), q)
    || Includes(ToLower(l.medicine.category), q)
    || Includes(ToLower(DonorName(l)), q)
  }

  predicate MatchesCategory(f: Filters, l: Listing) {
    f.category == "" || ToLower(l.medicine.category) == ToLower(f.category)
  }

  predicate MatchesCondition(f: Filters, l: Listing) {
    f.condition == "" || l.medicine.condition == f.condition
  }

  predicate MatchesAvailability(f: Filters, l: Listing) {
    !f.availability || l.medicine.status == Available
  }

  /**
   * The price test for a non-empty range other than `free`: `range.split('-').map(Number)` gives
   * `min` and `max`; a falsy `max` (missing, 0 or NaN) leaves only `price >= min`.
   */
  predicate InPriceRange(range: string, price: int) {
    var parts := Split(range, '-');
    var min := ToNumber(parts[0]);
    if |parts| < 2 || ToNumber(parts[1]).Falsy() then AtLeast(price, min)
    else AtLeast(price, min) && AtMost(price, ToNumber(parts[1]))
  }

  predicate MatchesPrice(f: Filters, l: Listing) {
    f.priceRange == ""
    || (if f.priceRange == "free" then l.medicine.isFree else InPriceRange(f.priceRange, Price(l)))
  }

  /** The whole callback: every test must pass. */
  predicate Passes(query: string, f: Filters, l: Listing) {
    MatchesSearch(query, l) && MatchesCategory(f, l) && MatchesCondition(f, l)
    && MatchesAvailability(f, l) && MatchesPrice(f, l)
  }

  /** `filteredMedicines`: the listings that pass, in fetched order, each as often as fetched. */
  function Filtered(items: seq<Listing>, query: string, f: Filters): (r: seq<Listing>)
    ensures IsSubsequence(r, items)
    ensures forall l :: l in r <==> l in items && Passes(query, f, l)
    ensures forall l | l in items && Passes(query, f, l) :: multiset(r)[l] == multiset(items)[l]
  {
    FilterIsSubsequence(items, (l: Listing) => Passes(query, f, l));
    Filter(items, (l: Listing) => Passes(query, f, l))
  }

  /** With no query and every filter cleared, nothing is filtered out. */
  lemma NoFiltersKeepAll(items: seq<Listing>)
    ensures Filtered(items, "", Filters("", "", "", false)) == items
  {
    FilterAll(items, (l: Listing) => Passes("", Filters("", "", "", false), l));
  }

  lemma {:induction false} FilterAll<T>(s: seq<T>, keep: T -> bool)
    requires forall x :: keep(x)
    ensures Filter(s, keep) == s
  {
    if s != [] {
      FilterAll(s[1..], keep);
      assert s == [s[0]] + s[1..];
    }
  }

  /** A query matches when it occurs, in any letter case, inside the medicine's name. */
  lemma SearchFindsName(query: string, l: Listing, i: nat)
    requires i + |query| <= |l.medicine.name|
    requires ToLower(l.medicine.name)[i..i + |query|] == ToLower(query)
    ensures MatchesSearch(query, l)
  {
    LowerIncludesAt(l.medicine.name, query, i);
  }

  lemma LowerIncludesAt(s: string, part: string, i: nat)
    requires i + |part| <= |s| && ToLower(s)[i..i + |part|] == ToLower(part)
    ensures Includes(ToLower(s), ToLower(part))
  {
    var ls, lp := ToLower(s), ToLower(part);
    assert |lp| == |part|;
    IncludesAt(ls, lp, i);
  }

  /** `free` keeps exactly the free listings. */
  lemma FreeRange(f: Filters, l: Listing)
    requires f.priceRange == "free"
    ensures MatchesPrice(f, l) <==> l.medicine.isFree
  {
  }

  /** The range `lo-hi` (hi not 0) keeps exactly the prices from `lo` to `hi`, a missing price counting as 0. */
  lemma {:induction false} BoundedRange(lo: nat, hi: nat, price: int)
    requires hi != 0
    ensures InPriceRange(IntToString(lo) + "-" + IntToString(hi), price) <==> lo <= price <= hi
  {
    var a, b := IntToString(lo), IntToString(hi);
    NoDash(lo);
    NoDash(hi);
    SplitAround(a, b, '-');
    IntToStringRoundTrip(lo);
    IntToStringRoundTrip(hi);
  }

  /** The two bounded ranges the page offers. */
  lemma OfferedRanges(price: int)
    ensures InPriceRange("0-500", price) <==> 0 <= price <= 500
    ensures InPriceRange("500-2000", price) <==> 500 <= price <= 2000
  {
    Digits500();
    BoundedRange(0, 500, price);
    BoundedRange(500, 2000, price);
  }

  lemma Digits500()
    ensures IntToString(0) + "-" + IntToString(500) == "0-500"
    ensures IntToString(500) + "-" + IntToString(2000) == "500-2000"
  {
    assert IntToString(0) == "0";
    assert IntToString(5) == "5";
    assert IntToString(50) == "50";
    assert IntToString(500) == "500";
    assert IntToString(2) == "2";
    assert IntToString(20) == "20";
    assert IntToString(200) == "200";
    assert IntToString(2000) == "2000";
  }

  /** A range without a dash has no `max`, so only the lower bound applies. */
  lemma {:induction false} OpenRange(lo: nat, price: int)
    ensures InPriceRange(IntToString(lo), price) <==> price >= lo
  {
    NoDash(lo);
    SplitWithoutSeparator(IntToString(lo), '-');
    IntToStringRoundTrip(lo);
  }

  /** `2000+` is not a number, so the range matches no medicine at all. */
  lemma PlusRangeMatchesNothing(f: Filters, l: Listing)
    requires f.priceRange == "2000+"
    ensures !MatchesPrice(f, l)
  {
    PlusRangeParts();
  }

  lemma PlusRangeParts()
    ensures Split("2000+", '-') == ["2000+"] && ToNumber("2000+") == NaN
  {
    var s := "2000+";
    assert s[4] == '+';
    assert '-' !in s;
    SplitWithoutSeparator(s, '-');
    TrimStartOfUnpadded(s);
    TrimEndOfUnpadded(s);
    ToNumberNaN(s, 4);
  }

  lemma NoDash(n: nat)
    ensures '-' !in IntToString(n)
  {
    var s := IntToString(n);
    assert forall i :: 0 <= i < |s| ==> IsDigit(s[i]);
  }

  // ---- sorting ----------------------------------------------------------------------------

  /** The mean rating the comparator computes (`curr.rating || 0`), 0 without ratings; not rounded. */
  function MeanScore(l: Listing): real {
    if l.medicine.ratings == [] then 0.0 else MeanRating(l.medicine.ratings)
  }

  /**
   * The ascending key equivalent to the comparator for each `sortBy` value:
   * `price-low` by price, `price-high` and `trust-score` descending, anything else newest first.
   */
  function SortKey(sortBy: string, l: Listing): real {
    if sortBy == "price-low" then Price(l) as real
    else if sortBy == "price-high" then -(Price(l) as real)
    else if sortBy == "trust-score" then -MeanScore(l)
    else -(l.medicine.createdAt as real)
  }

  /** `[...filteredMedicines].sort(comparator)`: a stable sort by the key. */
  function Sorted(items: seq<Listing>, sortBy: string): (r: seq<Listing>)
    ensures multiset(r) == multiset(items)
    ensures sortBy == "price-low" ==> forall i, j :: 0 <= i < j < |r| ==> Price(r[i]) <= Price(r[j])
    ensures sortBy == "price-high" ==> forall i, j :: 0 <= i < j < |r| ==> Price(r[i]) >= Price(r[j])
    ensures sortBy == "trust-score" ==> forall i, j :: 0 <= i < j < |r| ==> MeanScore(r[i]) >= MeanScore(r[j])
    ensures sortBy !in ["price-low", "price-high", "trust-score"] ==>
      forall i, j :: 0 <= i < j < |r| ==> r[i].medicine.createdAt >= r[j].medicine.createdAt
  {
    var r := SortBy(items, (l: Listing) => SortKey(sortBy, l));
    assert forall i, j :: 0 <= i < j < |r| ==> SortKey(sortBy, r[i]) <= SortKey(sortBy, r[j]);
    r
  }

  /** Listings whose keys tie keep the order they had after filtering. */
  lemma SortedKeepsTies(items: seq<Listing>, sortBy: string, k: real)
    ensures Ties(Sorted(items, sortBy), (l: Listing) => SortKey(sortBy, l), k)
         == Ties(items, (l: Listing) => SortKey(sortBy, l), k)
  {
    SortByStable(items, (l: Listing) => SortKey(sortBy, l), k);
  }

  /** What the page shows: the filtered listings in the chosen order. */
  function Shown(items: seq<Listing>, query: string, f: Filters, sortBy: string): (r: seq<Listing>)
    ensures forall l :: l in r <==> l in items && Passes(query, f, l)
    ensures multiset(r) == multiset(Filtered(items, query, f))
  {
    Sorted(Filtered(items, query, f), sortBy)
  }
}

=== FILE: middleware.dfy ===
/**
 * The page-route gate that runs before every page request (src/middleware.js).
 * The lookup of the current user through `/api/auth/me` is abstracted to its outcome:
 * `Ok(role)` when that endpoint answered 2xx, `Fail` when it answered otherwise or the fetch threw.
 */
module Middleware {
  import opened Optional
  import opened Strings

  /** Outcome of fetching `/api/auth/me` with the request's `token` cookie. */
  datatype Lookup = Ok(role: string) | Fail

  /** What the request carries: no `token` cookie at all, or one together with the lookup outcome. */
  datatype Session = NoToken | Token(lookup: Lookup)

  datatype QueryParam = QueryParam(name: string, value: string)

  /** The three answers of the gate. */
  datatype Decision =
    | Proceed
    | Redirect(location: string, query: seq<QueryParam>)
    | RedirectClearingToken(location: string, query: seq<QueryParam>)

  datatype Route = Route(prefix: string, allowedRoles: seq<string>)

  /** The role-keyed table of protected path prefixes, in declaration order. */
  const ProtectedRoutes: seq<Route> := [
    Route("/donate", ["donor"]),
    Route("/request", ["recipient"]),
    Route("/profile", ["donor", "recipient", "admin"])
  ]

  /** Pages an authenticated user is sent away from. */
  const PublicOnlyRoutes: seq<string> := ["/login", "/register"]

  const LoginPage := "/login"
  const HomePage := "/"
  const LoginPrompt := "Please login to access this feature"
  const SessionExpired := "Your session has expired. Please login again"

  /** Index of the first route (in declaration order) whose key is a prefix of `path`. */
  function MatchingRoute(path: string, routes: seq<Route>): (r: Option<nat>)
    ensures r.Some? ==> r.value < |routes| && StartsWith(path, routes[r.value].prefix)
    ensures r.Some? ==> forall j :: 0 <= j < r.value ==> !StartsWith(path, routes[j].prefix)
    ensures r.None? <==> forall j :: 0 <= j < |routes| ==> !StartsWith(path, routes[j].prefix)
  {
    if routes == [] then None
    else if StartsWith(path, routes[0].prefix) then Some(0)
    else
      match MatchingRoute(path, routes[1..])
      case None => None
      case Some(i) => Some(i + 1)
  }

  /** `Object.keys(protectedRoutes).some(route => pathname.startsWith(route))` */
  predicate IsProtected(path: string) {
    exists j :: 0 <= j < |ProtectedRoutes| && StartsWith(path, ProtectedRoutes[j].prefix)
  }

  /** `publicOnlyRoutes.some(route => pathname.startsWith(route))` */
  predicate IsPublicOnly(path: string) {
    exists j :: 0 <= j < |PublicOnlyRoutes| && StartsWith(path, PublicOnlyRoutes[j])
  }

  /** The allowed roles of the first matching key, or none for an unprotected path. */
  function AllowedRoles(path: string): (roles: seq<string>)
    ensures IsProtected(path) <==> MatchingRoute(path, ProtectedRoutes).Some?
    ensures IsProtected(path) <==> roles != []
    ensures forall r :: r in roles ==> r in ["donor", "recipient", "admin"]
  {
    match MatchingRoute(path, ProtectedRoutes)
    case Some(i) => ProtectedRoutes[i].allowedRoles
    case None => []
  }

  function LoginRedirect(path: string, message: string): seq<QueryParam> {
    [QueryParam("from", path), QueryParam("message", message)]
  }

  /** The decision `middleware(request)` takes for `path`. */
  function Decide(path: string, session: Session): (d: Decision)
    ensures d.RedirectClearingToken? ==> session == Token(Fail)
    ensures d.Redirect? ==> d.location == HomePage || (session == NoToken && d.location == LoginPage)
  {
    match session
    case NoToken =>
      if IsProtected(path) then Redirect(LoginPage, LoginRedirect(path, LoginPrompt)) else Proceed
    case Token(Ok(role)) =>
      if IsPublicOnly(path) then Redirect(HomePage, [])
      else if IsProtected(path) && role !in AllowedRoles(path) then Redirect(HomePage, [])
      else Proceed
    case Token(Fail) =>
      if IsProtected(path) then RedirectClearingToken(LoginPage, LoginRedirect(path, SessionExpired))
      else Proceed
  }

  /** No token on a path under `/donate`, `/request` or `/profile`: off to the login page, remembering the path. */
  lemma NoTokenProtectedRedirectsToLogin(path: string, j: nat)
    requires j < |ProtectedRoutes| && StartsWith(path, ProtectedRoutes[j].prefix)
    ensures Decide(path, NoToken) == Redirect("/login", [QueryParam("from", path), QueryParam("message", LoginPrompt)])
  {
  }

  /** No token on any other path: the request proceeds. */
  lemma NoTokenElsewhereProceeds(path: string)
    requires !IsProtected(path)
    ensures Decide(path, NoToken) == Proceed
  {
  }

  /** A signed-in user whose session lookup succeeds proceeds on a path neither protected nor public-only. */
  lemma SignedInElsewhereProceeds(path: string, role: string)
    requires !IsProtected(path) && !StartsWith(path, "/login") && !StartsWith(path, "/register")
    ensures Decide(path, Token(Ok(role))) == Proceed
  {
    assert !StartsWith(path, PublicOnlyRoutes[0]) && !StartsWith(path, PublicOnlyRoutes[1]);
  }

  /** A signed-in user is sent home from `/login` and `/register` (and anything starting with them). */
  lemma SignedInLeavesPublicOnly(path: string, role: string)
    requires StartsWith(path, "/login") || StartsWith(path, "/register")
    ensures Decide(path, Token(Ok(role))) == Redirect("/", [])
  {
    assert StartsWith(path, PublicOnlyRoutes[0]) || StartsWith(path, PublicOnlyRoutes[1]);
  }

  /** The protected keys are not prefixes of one another, so no path starts with two of them. */
  lemma {:induction false} KeysExclusive(path: string, i: nat, j: nat)
    requires i < j < |ProtectedRoutes|
    ensures !(StartsWith(path, ProtectedRoutes[i].prefix) && StartsWith(path, ProtectedRoutes[j].prefix))
  {
    HeadsDiffer(path, ProtectedRoutes[i].prefix, ProtectedRoutes[j].prefix);
  }

  /** Every key of either table has its own fourth character (`n`, `q`, `o`; `g` for both public-only pages). */
  lemma HeadsDiffer(path: string, a: string, b: string)
    requires 3 < |a| && 3 < |b| && a[3] != b[3]
    ensures !(StartsWith(path, a) && StartsWith(path, b))
  {
    if StartsWith(path, a) {
      assert path[3] == path[..|a|][3] == a[3];
    }
  }

  /** The roles consulted for a path are those of the key it starts with. */
  lemma {:induction false} RolesOfMatchedKey(path: string, j: nat)
    requires j < |ProtectedRoutes| && StartsWith(path, ProtectedRoutes[j].prefix)
    ensures AllowedRoles(path) == ProtectedRoutes[j].allowedRoles
  {
    var m := MatchingRoute(path, ProtectedRoutes);
    assert m.Some?;
    if m.value < j {
      KeysExclusive(path, m.value, j);
    }
  }

  /** Role gating: with a successful lookup, a protected path redirects home exactly when the role is not listed. */
  lemma {:induction false} RoleGate(path: string, role: string, j: nat)
    requires j < |ProtectedRoutes| && StartsWith(path, ProtectedRoutes[j].prefix)
    ensures Decide(path, Token(Ok(role))) ==
      if role in ProtectedRoutes[j].allowedRoles then Proceed else Redirect("/", [])
  {
    RolesOfMatchedKey(path, j);
    HeadsDiffer(path, ProtectedRoutes[j].prefix, PublicOnlyRoutes[0]);
    HeadsDiffer(path, ProtectedRoutes[j].prefix, PublicOnlyRoutes[1]);
    assert !IsPublicOnly(path);
  }

  /** The concrete role table: a donor may donate but not request, a recipient the reverse, and all three roles see profiles. */
  lemma RoleTable(path: string)
    ensures StartsWith(path, "/donate") ==> Decide(path, Token(Ok("donor"))) == Proceed
    ensures StartsWith(path, "/donate") ==> Decide(path, Token(Ok("recipient"))) == Redirect("/", [])
    ensures StartsWith(path, "/request") ==> Decide(path, Token(Ok("recipient"))) == Proceed
    ensures StartsWith(path, "/request") ==> Decide(path, Token(Ok("donor"))) == Redirect("/", [])
    ensures StartsWith(path, "/profile") ==> Decide(path, Token(Ok("admin"))) == Proceed
  {
    if StartsWith(path, "/donate") {
      RoleGate(path, "donor", 0);
      RoleGate(path, "recipient", 0);
    }
    if StartsWith(path, "/request") {
      RoleGate(path, "recipient", 1);
      RoleGate(path, "donor", 1);
    }
    if StartsWith(path, "/profile") {
      RoleGate(path, "admin", 2);
    }
  }

  /** A token whose lookup fails, on a protected path: back to login with the expiry message, and the cookie is deleted. */
  lemma FailedLookupOnProtected(path: string, j: nat)
    requires j < |ProtectedRoutes| && StartsWith(path, ProtectedRoutes[j].prefix)
    ensures Decide(path, Token(Fail)) ==
      RedirectClearingToken("/login", [QueryParam("from", path), QueryParam("message", SessionExpired)])
  {
  }

  /** A token whose lookup fails, on any other path (including `/login`): proceed and keep the cookie. */
  lemma FailedLookupElsewhere(path: string)
    requires !IsProtected(path)
    ensures Decide(path, Token(Fail)) == Proceed
  {
  }

  /**
   * Matching is by prefix, not by path segment: `/donations` or `/profiles` (any extension of a key)
   * is gated exactly like the key itself.
   */
  lemma PrefixMatching(j: nat, rest: string, role: string)
    requires j < |ProtectedRoutes|
    ensures AllowedRoles(ProtectedRoutes[j].prefix + rest) == ProtectedRoutes[j].allowedRoles
    ensures Decide(ProtectedRoutes[j].prefix + rest, NoToken).Redirect?
    ensures Decide(ProtectedRoutes[j].prefix + rest, Token(Fail)).RedirectClearingToken?
    ensures Decide(ProtectedRoutes[j].prefix + rest, Token(Ok(role))) ==
      if role in ProtectedRoutes[j].allowedRoles then Proceed else Redirect("/", [])
  {
    var key := ProtectedRoutes[j].prefix;
    assert (key + rest)[..|key|] == key;
    RolesOfMatchedKey(key + rest, j);
    RoleGate(key + rest, role, j);
  }
}

=== FILE: optional.dfy ===
/** A value that may be absent: an unset document field, a missing JSON key, a lookup that found nothing. */
module Optional {

  datatype Option<+T> = None | Some(value: T) {
    function GetOr(default: T): T {
      match this
      case Some(v) => v
      case None => default
    }
  }
}

=== FILE: profile.dfy ===
/**
 * `/api/users/profile` (src/app/api/users/profile/route.js). `GET` answers the signed-in user's
 * record without its password; `PUT` copies the truthy ones among `name`, `phone` and `address`
 * from the body onto the record, saves it, and answers the record as saved.
 */
module ProfileRoute {
  import opened Optional
  import opened Strings
  import opened Js
  import opened Crypto
  import opened Http
  import opened Users

  const InternalError := "Internal server error"

  /** The record as `.select('-password').lean()` returns it: every field except the password. */
  datatype Profile = Profile(
    id: ObjectId,
    name: string,
    email: string,
    role: string,
    phone: string,
    address: string,
    isVerified: bool,
    verificationToken: Option<string>,
    resetPasswordToken: Option<string>,
    resetPasswordExpire: Option<int>,
    lastLogin: Option<int>)

  function ProfileOf(u: User): Profile {
    Profile(u.id, u.name, u.email, u.role, u.phone, u.address, u.isVerified,
      u.verificationToken, u.resetPasswordToken, u.resetPasswordExpire, u.lastLogin)
  }

  /** The projection hides the password and nothing else: two records look alike exactly when they differ at most in it. */
  lemma ProfileHidesOnlyPassword(u: User, v: User)
    ensures ProfileOf(u) == ProfileOf(v) <==> u.(password := v.password) == v
  {
  }

  /** `GET`. */
  function GetProfile(users: seq<User>, auth: Auth): (r: Reply<Profile>)
    ensures auth.NoToken? ==> r == Failure(401, "Unauthorized")
    ensures auth.BadToken? ==> r == Failure(500, InternalError)
    ensures auth.Verified? && FindById(users, auth.userId).None? ==> r == Failure(404, "User not found")
    ensures r.Success? <==> auth.Verified? && FindById(users, auth.userId).Some?
    ensures r.Success? ==> r.status == 200 && r.value.id == auth.userId
    ensures r.Success? ==> ProfileOf(users[FindById(users, auth.userId).value]) == r.value
  {
    match auth
    case NoToken => Failure(401, "Unauthorized")
    case BadToken => Failure(500, InternalError)
    case Verified(id) =>
      match FindById(users, id)
      case None => Failure(404, "User not found")
      case Some(i) => Success(200, ProfileOf(users[i]))
  }

  /** `const allowedUpdates = ['name', 'phone', 'address']` */
  const AllowedUpdates: seq<string> := ["name", "phone", "address"]

  /** `user[field] = value`, through the path's `trim` setter; a field outside the three is ignored. */
  function Assign(u: User, field: string, value: string): User {
    if field == "name" then u.(name := Trim(value))
    else if field == "phone" then u.(phone := Trim(value))
    else if field == "address" then u.(address := Trim(value))
    else u
  }

  /** One iteration of the `forEach`: assign when `data[field]` is truthy. */
  function UpdateField(u: User, data: map<string, JsValue>, field: string): User {
    if Supplied(data, field) then Assign(u, field, StringCast(data[field])) else u
  }

  /** The `forEach` over `fields`, as the state after each prefix of the list. */
  function ApplyUpdates(u: User, data: map<string, JsValue>, fields: seq<string>): User
    decreases |fields|
  {
    if fields == [] then u
    else UpdateField(ApplyUpdates(u, data, fields[..|fields| - 1]), data, fields[|fields| - 1])
  }

  /** Whatever the body holds, the loop touches only `name`, `phone` and `address`. */
  lemma {:induction false} UpdatesOnlyAllowed(u: User, data: map<string, JsValue>, fields: seq<string>)
    ensures var r := ApplyUpdates(u, data, fields);
      r == u.(name := r.name, phone := r.phone, address := r.address)
    decreases |fields|
  {
    if fields != [] {
      UpdatesOnlyAllowed(u, data, fields[..|fields| - 1]);
    }
  }

  /**
   * Each of the three fields becomes the trimmed value the body supplies when that value is
   * truthy, and otherwise keeps its stored value: an empty string, `0`, `false`, `null` or a
   * missing key leaves it as it was.
   */
  lemma FieldRule(u: User, data: map<string, JsValue>)
    ensures var r := ApplyUpdates(u, data, AllowedUpdates);
      && r.name == (if Supplied(data, "name") then Trim(StringCast(data["name"])) else u.name)
      && r.phone == (if Supplied(data, "phone") then Trim(StringCast(data["phone"])) else u.phone)
      && r.address == (if Supplied(data, "address") then Trim(StringCast(data["address"])) else u.address)
  {
    var fs := AllowedUpdates;
    assert fs[..2] == ["name", "phone"] && fs[..2][..1] == ["name"] && fs[..2][..1][..0] == [];
    var r1 := UpdateField(u, data, "name");
    var r2 := UpdateField(r1, data, "phone");
    assert ApplyUpdates(u, data, ["name"]) == r1;
    assert ApplyUpdates(u, data, ["name", "phone"]) == r2;
    assert ApplyUpdates(u, data, fs) == UpdateField(r2, data, "address");
  }

  /** The handler's `forEach`, as a loop over the allowed fields updating the loaded record in place. */
  method ApplyAllowed(u: User, data: map<string, JsValue>) returns (r: User)
    ensures r == ApplyUpdates(u, data, AllowedUpdates)
  {
    r := u;
    var k := 0;
    while k < |AllowedUpdates|
      invariant 0 <= k <= |AllowedUpdates|
      invariant r == ApplyUpdates(u, data, AllowedUpdates[..k])
    {
      var field := AllowedUpdates[k];
      if Supplied(data, field) {
        r := Assign(r, field, StringCast(data[field]));
      }
      assert AllowedUpdates[..k + 1][..k] == AllowedUpdates[..k];
      k := k + 1;
    }
    assert AllowedUpdates[..k] == AllowedUpdates;
  }

  /** The `PUT` body on success: the message and the record read back after saving. */
  datatype Updated = Updated(message: string, user: Profile)

  /** `PUT`: `data` is the parsed body. */
  function UpdateProfile(users: seq<User>, auth: Auth, data: map<string, JsValue>, c: Primitives, salt: string)
    : (o: Outcome<Updated>)
    ensures auth.NoToken? ==> o == Outcome(Failure(401, "Unauthorized"), users)
    ensures auth.BadToken? ==> o == Outcome(Failure(500, InternalError), users)
    ensures auth.Verified? && FindById(users, auth.userId).None? ==> o == Outcome(Failure(404, "User not found"), users)
    ensures o.reply.Failure? ==> o.users == users
    ensures o.reply.Success? <==>
      auth.Verified? && FindById(users, auth.userId).Some?
      && Valid(ApplyUpdates(users[FindById(users, auth.userId).value], data, AllowedUpdates))
    ensures o.reply.Success? ==>
      var i := FindById(users, auth.userId).value;
      && o.users == users[i := ApplyUpdates(users[i], data, AllowedUpdates)]
      && o.reply == Success(200, Updated("Profile updated successfully", ProfileOf(o.users[i])))
  {
    match auth
    case NoToken => Outcome(Failure(401, "Unauthorized"), users)
    case BadToken => Outcome(Failure(500, InternalError), users)
    case Verified(id) =>
      match FindById(users, id)
      case None => Outcome(Failure(404, "User not found"), users)
      case Some(i) =>
        UpdatesOnlyAllowed(users[i], data, AllowedUpdates);
        match Save(Some(users[i]), ApplyUpdates(users[i], data, AllowedUpdates), c, salt)
        case Invalid(_) => Outcome(Failure(500, InternalError), users)
        case Stored(u) => Outcome(Success(200, Updated("Profile updated successfully", ProfileOf(u))), users[i := u])
  }

  /** A successful update leaves the email address, role, password, verification state and tokens as they were. */
  lemma UpdateKeepsCredentials(users: seq<User>, auth: Auth, data: map<string, JsValue>, c: Primitives, salt: string)
    requires UpdateProfile(users, auth, data, c, salt).reply.Success?
    ensures var i := FindById(users, auth.userId).value;
      var after := UpdateProfile(users, auth, data, c, salt).users[i];
      && after.id == users[i].id && after.email == users[i].email && after.role == users[i].role
      && after.password == users[i].password && after.isVerified == users[i].isVerified
      && after.verificationToken == users[i].verificationToken
      && after.resetPasswordToken == users[i].resetPasswordToken
      && after.resetPasswordExpire == users[i].resetPasswordExpire
      && after.lastLogin == users[i].lastLogin
  {
    var i := FindById(users, auth.userId).value;
    UpdatesOnlyAllowed(users[i], data, AllowedUpdates);
  }

  /** A name that trims to nothing fails the schema's `required`, and the handler answers 500. */
  lemma BlankNameIsServerError(users: seq<User>, id: ObjectId, data: map<string, JsValue>, c: Primitives, salt: string)
    requires FindById(users, id).Some? && Supplied(data, "name") && Trim(StringCast(data["name"])) == ""
    ensures UpdateProfile(users, Verified(id), data, c, salt) == Outcome(Failure(500, InternalError), users)
  {
    FieldRule(users[FindById(users, id).value], data);
  }

  /** The record the handler reads back after saving is the one just saved. */
  lemma ReloadSeesSaved(users: seq<User>, id: ObjectId, data: map<string, JsValue>, c: Primitives, salt: string)
    requires UpdateProfile(users, Verified(id), data, c, salt).reply.Success?
    ensures var after := UpdateProfile(users, Verified(id), data, c, salt).users;
      FindById(after, id) == FindById(users, id)
      && UpdateProfile(users, Verified(id), data, c, salt).reply.value.user == ProfileOf(after[FindById(after, id).value])
  {
    var i := FindById(users, id).value;
    UpdatesOnlyAllowed(users[i], data, AllowedUpdates);
    var after := UpdateProfile(users, Verified(id), data, c, salt).users;
    FindByIdAfterUpdate(users, i, after[i], id);
  }

  /** `PUT` over the store: the loop over the allowed fields on the loaded record, then `user.save()`. */
  method HandleUpdateProfile(store: UserStore, auth: Auth, data: map<string, JsValue>, c: Primitives, salt: string)
    returns (reply: Reply<Updated>)
    modifies store
    ensures Outcome(reply, store.users) == UpdateProfile(old(store.users), auth, data, c, salt)
  {
    if auth.NoToken? {
      return Failure(401, "Unauthorized");
    }
    if auth.BadToken? {
      return Failure(500, InternalError);
    }
    var found := FindById(store.users, auth.userId);
    if found.None? {
      return Failure(404, "User not found");
    }
    var i := found.value;
    var user := ApplyAllowed(store.users[i], data);
    UpdatesOnlyAllowed(store.users[i], data, AllowedUpdates);
    var outcome := store.SaveAt(i, user, c, salt);
    if outcome.Invalid? {
      return Failure(500, InternalError);
    }
    reply := Success(200, Updated("Profile updated successfully", ProfileOf(outcome.user)));
  }
}

=== FILE: request.dfy ===
/**
 * The medicine request record (src/models/Request.js): its fields, defaults and schema
 * constraints. An absent string path is the empty string, which `required` rejects.
 */
module Requests {
  import opened Optional
  import opened Strings
  import opened Validation

  datatype Request = Request(
    id: nat,
    medicine: string,
    recipientEmail: string,
    donor: Option<nat>,
    status: string,
    /** `None` when the path is unset. */
    quantity: Option<int>,
    urgency: string,
    prescription: string,
    description: string,
    location: string,
    createdAt: int)

  const Statuses: seq<string> := ["pending", "accepted", "completed", "cancelled"]
  const DefaultStatus := "pending"
  const Urgencies: seq<string> := ["low", "medium", "high"]
  const DefaultUrgency := "medium"
  const MaxDescription := 500

  /** The schema's constraints as one conjunction. */
  predicate Valid(r: Request) {
    && r.medicine != ""
    && r.recipientEmail != ""
    && r.status in Statuses
    && r.quantity.Some? && r.quantity.value >= 1
    && r.urgency in Urgencies
    && r.prescription != ""
    && |r.description| <= MaxDescription
    && r.location != ""
  }

  /** The errors `validate()` collects, in schema order, the first failing validator of each path. */
  function Violations(r: Request): (vs: seq<Violation>)
    ensures vs == [] <==> Valid(r)
    ensures r.quantity.None? ==> Violation("quantity", "Quantity is required") in vs
    ensures r.quantity.Some? && r.quantity.value < 1 ==> Violation("quantity", "Quantity must be at least 1") in vs
    ensures r.urgency !in Urgencies ==> Violation("urgency", EnumMessage(r.urgency, "urgency")) in vs
    ensures r.prescription == "" ==> Violation("prescription", "Prescription image is required") in vs
    ensures |r.description| > 500 ==> Violation("description", "Description cannot be more than 500 characters") in vs
  {
    Required("medicine", r.medicine, "Medicine name is required")
    + Required("recipientEmail", r.recipientEmail, "Recipient email is required")
    + Enum("status", r.status, Statuses)
    + (if r.quantity.None? then [Violation("quantity", "Quantity is required")]
       else AtLeast("quantity", r.quantity.value, 1, "Quantity must be at least 1"))
    + Enum("urgency", r.urgency, Urgencies)
    + Required("prescription", r.prescription, "Prescription image is required")
    + AtMostLength("description", r.description, MaxDescription, "Description cannot be more than 500 characters")
    + Required("location", r.location, "Location is required")
  }

  /**
   * A new request as the model's defaults fill it in: `status` and `urgency` default to
   * `pending` and `medium` when the caller gives none, and the trimmed `medicine` is stored.
   */
  function NewRequest(id: nat, medicine: string, recipientEmail: string, status: Option<string>,
                      quantity: Option<int>, urgency: Option<string>, prescription: string,
                      description: string, location: string, now: int): (r: Request)
    ensures status.None? ==> r.status == "pending" && r.status in Statuses
    ensures urgency.None? ==> r.urgency == "medium" && r.urgency in Urgencies
    ensures status.Some? ==> r.status == status.value
    ensures urgency.Some? ==> r.urgency == urgency.value
    ensures r.medicine == Trim(medicine) && r.donor.None? && r.createdAt == now
  {
    Request(id, Trim(medicine), recipientEmail, None, status.GetOr(DefaultStatus), quantity,
      urgency.GetOr(DefaultUrgency), prescription, description, location, now)
  }

  /** With the defaults, a request is accepted exactly when its required fields, quantity and description are. */
  lemma DefaultsAccepted(id: nat, medicine: string, recipientEmail: string, quantity: Option<int>,
                         prescription: string, description: string, location: string, now: int)
    ensures var r := NewRequest(id, medicine, recipientEmail, None, quantity, None, prescription, description, location, now);
      Violations(r) == [] <==>
        && Trim(medicine) != "" && recipientEmail != "" && prescription != "" && location != ""
        && quantity.Some? && quantity.value >= 1 && |description| <= 500
  {
  }
}

=== FILE: reset_password.dfy ===
/**
 * `POST /api/auth/reset-password` (src/app/api/auth/reset-password/route.js): find the account
 * holding the token with an expiry still ahead, set the new password (the pre-save hook hashes
 * it), clear the token and its expiry, and save.
 */
module ResetPasswordRoute {
  import opened Optional
  import opened Strings
  import opened Seqs
  import opened Crypto
  import opened Validation
  import opened Http
  import opened Users
  import ForgotPasswordRoute

  const ResetDone := "Password reset successful"
  const InvalidToken := "Invalid or expired reset token"

  /** The query `{ resetPasswordToken: token, resetPasswordExpire: { $gt: now } }` on one record. */
  predicate Holds(u: User, token: string, now: int) {
    u.resetPasswordToken == Some(token) && u.resetPasswordExpire.Some? && u.resetPasswordExpire.value > now
  }

  /** `findOne` with that query: the first record it matches. */
  function FindByResetToken(users: seq<User>, token: string, now: int): (r: Option<nat>)
    ensures r.Some? ==> r.value < |users| && Holds(users[r.value], token, now)
    ensures r.Some? ==> forall j :: 0 <= j < r.value ==> !Holds(users[j], token, now)
    ensures r.None? <==> forall j :: 0 <= j < |users| ==> !Holds(users[j], token, now)
  {
    FirstIndex(users, (u: User) => Holds(u, token, now))
  }

  /** The handler's assignments: the raw new password, and no token or expiry. */
  function Reset(u: User, password: string): User {
    u.(password := password, resetPasswordToken := None, resetPasswordExpire := None)
  }

  /** The handler; `now` is `Date.now()`, `salt` the salt the pre-save hook draws. */
  function ResetPassword(users: seq<User>, token: string, password: string, now: int, c: Primitives, salt: string)
    : (o: Outcome<string>)
    ensures token == "" || password == "" ==> o == Outcome(Failure(400, "Token and password are required"), users)
    ensures token != "" && password != "" && FindByResetToken(users, token, now).None? ==>
      o == Outcome(Failure(400, InvalidToken), users)
    ensures o.reply.Failure? ==> o.users == users
    ensures |o.users| == |users|
    ensures token != "" && password != "" && FindByResetToken(users, token, now).Some? ==>
      var i := FindByResetToken(users, token, now).value;
      if !Valid(Reset(users[i], password)) then
        o.reply == Failure(500, "Error resetting password: " + ValidationMessage("User", Violations(Reset(users[i], password))))
      else
        && o.reply == Success(200, ResetDone)
        && o.users == users[i := o.users[i]]
        && o.users[i] == Reset(users[i], o.users[i].password)
        && o.users[i].password == HashOnSave(password, Some(users[i].password), c, salt)
  {
    if token == "" || password == "" then Outcome(Failure(400, "Token and password are required"), users)
    else
      match FindByResetToken(users, token, now)
      case None => Outcome(Failure(400, InvalidToken), users)
      case Some(i) =>
        match Save(Some(users[i]), Reset(users[i], password), c, salt)
        case Invalid(errors) =>
          Outcome(Failure(500, "Error resetting password: " + ValidationMessage("User", errors)), users)
        case Stored(u) => Outcome(Success(200, ResetDone), users[i := u])
  }

  /** A token is honoured only strictly before its expiry: at the expiry instant it is refused. */
  lemma ExpiryIsExclusive(users: seq<User>, token: string, password: string, now: int, c: Primitives, salt: string)
    requires token != "" && password != ""
    requires forall j :: 0 <= j < |users| && users[j].resetPasswordToken == Some(token) ==>
      users[j].resetPasswordExpire.Some? && users[j].resetPasswordExpire.value <= now
    ensures ResetPassword(users, token, password, now, c, salt) == Outcome(Failure(400, InvalidToken), users)
  {
  }

  /** A password shorter than 8 characters fails the schema and is answered 500, not 400; the token stays usable. */
  lemma ShortPasswordIsServerError(users: seq<User>, token: string, password: string, now: int, c: Primitives, salt: string)
    requires token != "" && password != "" && |password| < MinPasswordLength
    requires FindByResetToken(users, token, now).Some? && Valid(users[FindByResetToken(users, token, now).value])
    ensures ResetPassword(users, token, password, now, c, salt) ==
      Outcome(Failure(500, "Error resetting password: "
        + ValidationMessage("User", [Violation("password", "Password must be at least 8 characters")])), users)
  {
  }

  /**
   * A reset token works once. When no other account holds the token, a second request with it,
   * whatever the password and however soon, is refused.
   */
  lemma SingleUse(users: seq<User>, token: string, password: string, now: int, c: Primitives, salt: string,
                  password2: string, now2: int, salt2: string)
    requires ResetPassword(users, token, password, now, c, salt).reply.Success?
    requires forall j :: 0 <= j < |users| && j != FindByResetToken(users, token, now).value ==>
      users[j].resetPasswordToken != Some(token)
    requires password2 != ""
    ensures var after := ResetPassword(users, token, password, now, c, salt).users;
      ResetPassword(after, token, password2, now2, c, salt2) == Outcome(Failure(400, InvalidToken), after)
  {
    var i := FindByResetToken(users, token, now).value;
    var after := ResetPassword(users, token, password, now, c, salt).users;
    assert forall j :: 0 <= j < |after| ==> after[j].resetPasswordToken != Some(token) by {
      forall j | 0 <= j < |after|
        ensures after[j].resetPasswordToken != Some(token)
      {
        if j != i {
          assert after[j] == users[j];
        }
      }
    }
  }

  /**
   * A found token on a valid account whose stored password is a bcrypt hash, with an acceptable
   * new password, resets it, and the new password matches.
   */
  lemma ResetSucceeds(users: seq<User>, i: nat, token: string, password: string, now: int, c: Primitives, salt: string)
    requires Sound(c)
    requires token != "" && FindByResetToken(users, token, now) == Some(i) && Valid(users[i])
    requires StartsWith(users[i].password, "$2")
    requires |password| >= MinPasswordLength && !StartsWith(password, "$2")
    ensures var o := ResetPassword(users, token, password, now, c, salt);
      && o.reply == Success(200, ResetDone)
      && o.users[i].resetPasswordToken.None? && o.users[i].resetPasswordExpire.None?
      && MatchPassword(o.users[i], password, c)
  {
    var o := ResetPassword(users, token, password, now, c, salt);
    assert Valid(Reset(users[i], password));
    assert users[i].password != password;
    assert o.users[i].password == c.hash(password, salt);
  }

  /** When only record `i` differs and only it holds the token, the lookup finds it. */
  lemma OnlyHolderFound(users: seq<User>, mid: seq<User>, i: nat, token: string, now: int)
    requires |mid| == |users| && i < |users| && Holds(mid[i], token, now)
    requires forall j :: 0 <= j < |users| && j != i ==> mid[j] == users[j]
    requires forall j :: 0 <= j < |users| ==> users[j].resetPasswordToken != Some(token)
    ensures FindByResetToken(mid, token, now) == Some(i)
  {
    forall j | 0 <= j < i
      ensures !Holds(mid[j], token, now)
    {
      assert mid[j] == users[j];
    }
  }

  /**
   * The round trip: a fresh token issued by forgot-password (no account held it before), used
   * within the hour on a valid account whose stored password is a bcrypt hash, with an
   * acceptable new password, resets the password, and
   * the account then matches the new password, whether or not the mail went out.
   */
  lemma ForgotThenReset(users: seq<User>, email: string, token: string, issued: int, appUrl: string,
                        mailError: Option<string>, c: Primitives, salt: string,
                        password: string, now: int, salt2: string)
    requires Sound(c)
    requires email != "" && FindByEmail(users, email).Some? && Valid(users[FindByEmail(users, email).value])
    requires StartsWith(users[FindByEmail(users, email).value].password, "$2")
    requires token != "" && forall j :: 0 <= j < |users| ==> users[j].resetPasswordToken != Some(token)
    requires issued <= now < issued + ForgotPasswordRoute.ResetWindow
    requires |password| >= MinPasswordLength && !StartsWith(password, "$2")
    ensures var mid := ForgotPasswordRoute.ForgotPassword(users, email, token, issued, appUrl, mailError, c, salt).outcome.users;
      var i := FindByEmail(users, email).value;
      var o := ResetPassword(mid, token, password, now, c, salt2);
      && o.reply == Success(200, ResetDone)
      && o.users[i].resetPasswordToken.None? && o.users[i].resetPasswordExpire.None?
      && MatchPassword(o.users[i], password, c)
  {
    var i := FindByEmail(users, email).value;
    ForgotPasswordRoute.IssuedTokenIsLinked(users, email, token, issued, appUrl, mailError, c, salt);
    var mid := ForgotPasswordRoute.ForgotPassword(users, email, token, issued, appUrl, mailError, c, salt).outcome.users;
    assert Holds(mid[i], token, now);
    OnlyHolderFound(users, mid, i, token, now);
    assert Valid(mid[i]) by {
      assert mid[i].password == users[i].password && mid[i].name == users[i].name;
      assert mid[i].email == users[i].email && mid[i].role == users[i].role;
    }
    ResetSucceeds(mid, i, token, password, now, c, salt2);
  }

  /** The handler over the store. */
  method HandleResetPassword(store: UserStore, token: string, password: string, now: int, c: Primitives, salt: string)
    returns (reply: Reply<string>)
    modifies store
    ensures Outcome(reply, store.users) == ResetPassword(old(store.users), token, password, now, c, salt)
  {
    if token == "" || password == "" {
      return Failure(400, "Token and password are required");
    }
    var found := FindByResetToken(store.users, token, now);
    if found.None? {
      return Failure(400, InvalidToken);
    }
    var i := found.value;
    var outcome := store.SaveAt(i, Reset(store.users[i], password), c, salt);
    if outcome.Invalid? {
      return Failure(500, "Error resetting password: " + ValidationMessage("User", outcome.errors));
    }
    reply := Success(200, ResetDone);
  }
}

=== FILE: seqs.dfy ===
/**
 * Sequence operations behind the application's list handling: `Array.prototype.filter`,
 * `find`-style first-match lookup (what `findOne` returns from a collection in natural order),
 * `map`, and the stable sort that `Array.prototype.sort` performs with a key-difference comparator.
 */
module Seqs {
  import opened Optional

  /** `s.filter(keep)`: the elements that pass, in their original order. */
  function Filter<T(==)>(s: seq<T>, keep: T -> bool): (r: seq<T>)
    ensures |r| <= |s|
    ensures forall i :: 0 <= i < |r| ==> keep(r[i])
    ensures multiset(r) <= multiset(s)
    ensures forall x | x in s :: multiset(r)[x] == if keep(x) then multiset(s)[x] else 0
  {
    if s == [] then []
    else
      assert s == [s[0]] + s[1..];
      (if keep(s[0]) then [s[0]] else []) + Filter(s[1..], keep)
  }

  /** `r` is obtained from `s` by deleting elements, without reordering the rest. */
  predicate IsSubsequence<T(==)>(r: seq<T>, s: seq<T>)
    decreases |s|
  {
    r == [] || (s != [] && ((r[0] == s[0] && IsSubsequence(r[1..], s[1..])) || IsSubsequence(r, s[1..])))
  }

  lemma {:induction false} FilterIsSubsequence<T>(s: seq<T>, keep: T -> bool)
    ensures IsSubsequence(Filter(s, keep), s)
    decreases |s|
  {
    if s != [] {
      FilterIsSubsequence(s[1..], keep);
      var rest := Filter(s[1..], keep);
      if keep(s[0]) {
        assert Filter(s, keep) == [s[0]] + rest;
        assert ([s[0]] + rest)[1..] == rest;
      } else {
        assert Filter(s, keep) == rest;
      }
    }
  }

  /** Filtering twice is filtering once by the conjunction. */
  lemma {:induction false} FilterFilter<T>(s: seq<T>, first: T -> bool, second: T -> bool, both: T -> bool)
    requires forall x :: both(x) == (first(x) && second(x))
    ensures Filter(Filter(s, first), second) == Filter(s, both)
    decreases |s|
  {
    if s != [] {
      FilterFilter(s[1..], first, second, both);
      var tail := Filter(s[1..], first);
      if first(s[0]) {
        assert Filter(s, first) == [s[0]] + tail;
        assert ([s[0]] + tail)[1..] == tail;
        assert Filter([s[0]] + tail, second) == (if second(s[0]) then [s[0]] else []) + Filter(tail, second);
      } else {
        assert Filter(s, first) == tail;
      }
    }
  }

  /** Index of the first element satisfying `p`, as a lookup that returns the first match. */
  function FirstIndex<T>(s: seq<T>, p: T -> bool): (r: Option<nat>)
    ensures r.Some? ==> r.value < |s| && p(s[r.value]) && forall j :: 0 <= j < r.value ==> !p(s[j])
    ensures r.None? <==> forall j :: 0 <= j < |s| ==> !p(s[j])
  {
    if s == [] then None
    else if p(s[0]) then Some(0)
    else
      match FirstIndex(s[1..], p)
      case None => None
      case Some(i) => Some(i + 1)
  }

  /** Two tests that agree on every element find the same first index. */
  lemma {:induction false} FirstIndexAgree<T>(s: seq<T>, p: T -> bool, q: T -> bool)
    requires forall i :: 0 <= i < |s| ==> p(s[i]) == q(s[i])
    ensures FirstIndex(s, p) == FirstIndex(s, q)
    decreases |s|
  {
    if s != [] && !p(s[0]) {
      FirstIndexAgree(s[1..], p, q);
    }
  }

  /** Two sequences whose elements pass the same test at every position have the same first index. */
  lemma {:induction false} FirstIndexPointwise<T>(s: seq<T>, t: seq<T>, p: T -> bool)
    requires |s| == |t| && forall i :: 0 <= i < |s| ==> p(s[i]) == p(t[i])
    ensures FirstIndex(s, p) == FirstIndex(t, p)
    decreases |s|
  {
    if s != [] && !p(s[0]) {
      FirstIndexPointwise(s[1..], t[1..], p);
    }
  }

  /** `s.map(f)` */
  function Map<A, B>(s: seq<A>, f: A -> B): (r: seq<B>)
    ensures |r| == |s|
    ensures forall i :: 0 <= i < |s| ==> r[i] == f(s[i])
  {
    if s == [] then [] else [f(s[0])] + Map(s[1..], f)
  }

  /** Non-decreasing by `key`. */
  predicate Ordered<T>(s: seq<T>, key: T -> real) {
    forall i, j :: 0 <= i < j < |s| ==> key(s[i]) <= key(s[j])
  }

  /** Insert `x` before the first element whose key is not smaller: `x` stays ahead of its ties. */
  function InsertBy<T(==)>(x: T, s: seq<T>, key: T -> real): (r: seq<T>)
    ensures multiset(r) == multiset(s) + multiset{x}
    ensures |r| == |s| + 1
    ensures r[0] == x || (s != [] && r[0] == s[0])
  {
    if s == [] || key(x) <= key(s[0]) then
      [x] + s
    else
      assert s == [s[0]] + s[1..];
      [s[0]] + InsertBy(x, s[1..], key)
  }

  lemma {:induction false} InsertByOrdered<T>(x: T, s: seq<T>, key: T -> real)
    requires Ordered(s, key)
    ensures Ordered(InsertBy(x, s, key), key)
    decreases |s|
  {
    if s != [] && key(s[0]) < key(x) {
      var rest := InsertBy(x, s[1..], key);
      InsertByOrdered(x, s[1..], key);
      assert key(s[0]) <= key(rest[0]);
      var r := [s[0]] + rest;
      forall i, j | 0 <= i < j < |r| ensures key(r[i]) <= key(r[j]) {
        if i > 0 {
          assert r[i] == rest[i - 1] && r[j] == rest[j - 1];
        } else {
          assert r[j] == rest[j - 1];
        }
      }
    }
  }

  /**
   * The order `Array.prototype.sort` produces with the comparator `(a, b) => key(a) - key(b)`:
   * ascending by key and stable (an insertion sort).
   */
  function SortBy<T(==)>(s: seq<T>, key: T -> real): (r: seq<T>)
    ensures multiset(r) == multiset(s)
    ensures Ordered(r, key)
  {
    if s == [] then []
    else
      assert s == [s[0]] + s[1..];
      InsertByOrdered(s[0], SortBy(s[1..], key), key);
      InsertBy(s[0], SortBy(s[1..], key), key)
  }

  /** The elements whose key equals `k`, in order. */
  function Ties<T>(s: seq<T>, key: T -> real, k: real): seq<T> {
    if s == [] then [] else (if key(s[0]) == k then [s[0]] else []) + Ties(s[1..], key, k)
  }

  lemma TiesCons<T>(h: T, t: seq<T>, key: T -> real, k: real)
    ensures Ties([h] + t, key, k) == (if key(h) == k then [h] else []) + Ties(t, key, k)
  {
    var r := [h] + t;
    assert r[0] == h && r[1..] == t;
  }

  lemma {:induction false} InsertByTies<T>(x: T, s: seq<T>, key: T -> real, k: real)
    ensures Ties(InsertBy(x, s, key), key, k) == (if key(x) == k then [x] else []) + Ties(s, key, k)
    decreases |s|
  {
    if s == [] || key(x) <= key(s[0]) {
      assert InsertBy(x, s, key) == [x] + s;
      TiesCons(x, s, key, k);
    } else {
      var rest := InsertBy(x, s[1..], key);
      InsertByTies(x, s[1..], key, k);
      assert InsertBy(x, s, key) == [s[0]] + rest;
      TiesCons(s[0], rest, key, k);
      assert s == [s[0]] + s[1..];
      TiesCons(s[0], s[1..], key, k);
      assert key(s[0]) != k || key(x) != k;
    }
  }

  /** Stability: elements with equal keys keep their relative order. */
  lemma {:induction false} SortByStable<T>(s: seq<T>, key: T -> real, k: real)
    ensures Ties(SortBy(s, key), key, k) == Ties(s, key, k)
    decreases |s|
  {
    if s != [] {
      SortByStable(s[1..], key, k);
      InsertByTies(s[0], SortBy(s[1..], key), key, k);
    }
  }
}

=== FILE: signup.dfy ===
/**
 * `POST /api/auth/signup` (src/app/api/auth/signup/route.js): required-field check, duplicate
 * check, normalisation, creation through the schema, and the signed-in response.
 * A missing body field and an empty string are both the empty string here.
 */
module SignupRoute {
  import opened Optional
  import opened Strings
  import opened Crypto
  import opened Validation
  import opened Http
  import opened Users

  datatype SignupRequest = SignupRequest(
    name: string, email: string, password: string, role: string, phone: string, address: string)

  /** The 201 body's `user` and the `token` cookie set beside it. */
  datatype Session = Session(user: PublicUser, token: string)

  predicate AllSupplied(b: SignupRequest) {
    b.name != "" && b.email != "" && b.password != "" && b.role != "" && b.phone != "" && b.address != ""
  }

  /** The document handed to `User.create`: trimmed name, phone and address, normalised email and role. */
  function NewUser(id: ObjectId, b: SignupRequest): (u: User)
    ensures u.role == ToLower(Trim(b.role)) && u.email == NormalizeEmail(b.email)
    ensures u.name == Trim(b.name) && u.phone == Trim(b.phone) && u.address == Trim(b.address)
    ensures u.password == b.password && !u.isVerified
    ensures u.verificationToken.None? && u.resetPasswordToken.None? && u.resetPasswordExpire.None?
  {
    User(id, Trim(b.name), NormalizeEmail(b.email), ToLower(Trim(b.role)), Trim(b.phone), Trim(b.address),
      b.password, false, None, None, None, None)
  }

  /** The handler: `id` is the new document's id, `salt` bcrypt's salt. */
  function Signup(users: seq<User>, b: SignupRequest, id: ObjectId, c: Primitives, salt: string): (o: Outcome<Session>)
    ensures !AllSupplied(b) ==> o == Outcome(Failure(400, "Please provide all required fields"), users)
    ensures AllSupplied(b) && FindByEmail(users, b.email).Some? ==> o == Outcome(Failure(400, "User already exists"), users)
    ensures o.reply.Failure? ==> o.users == users
    ensures o.reply.Failure? ==> o.reply.status == 400
    ensures o.reply.Success? <==> AllSupplied(b) && FindByEmail(users, b.email).None? && Valid(NewUser(id, b))
    ensures AllSupplied(b) && FindByEmail(users, b.email).None? && !Valid(NewUser(id, b)) ==>
      o == Outcome(Failure(400, Join(Messages(Violations(NewUser(id, b))), ", ")), users)
    ensures o.reply.Success? ==>
      && o.reply.status == 201
      && |o.users| == |users| + 1 && o.users[..|users|] == users
      && o.users[|users|] == NewUser(id, b).(password := o.users[|users|].password)
      && o.users[|users|].password == HashOnSave(b.password, None, c, salt)
      && o.reply.value == Session(Public(o.users[|users|]), c.sign(id))
  {
    if !AllSupplied(b) then Outcome(Failure(400, "Please provide all required fields"), users)
    else if FindByEmail(users, b.email).Some? then Outcome(Failure(400, "User already exists"), users)
    else
      match Save(None, NewUser(id, b), c, salt)
      case Invalid(errors) => Outcome(Failure(400, Join(Messages(errors), ", ")), users)
      case Stored(u) => Outcome(Success(201, Session(Public(u), c.sign(u.id))), users + [u])
  }

  /**
   * Schema failures are answered 400 with the joined messages: an unknown role and a short
   * password are refused with their own messages.
   */
  lemma SignupSchemaErrors(users: seq<User>, b: SignupRequest, id: ObjectId, c: Primitives, salt: string)
    requires AllSupplied(b) && FindByEmail(users, b.email).None?
    requires ToLower(Trim(b.role)) !in Roles || |b.password| < MinPasswordLength
    ensures Signup(users, b, id, c, salt) ==
      Outcome(Failure(400, Join(Messages(Violations(NewUser(id, b))), ", ")), users)
    ensures ToLower(Trim(b.role)) !in Roles ==>
      EnumMessage(ToLower(Trim(b.role)), "role") in Messages(Violations(NewUser(id, b)))
    ensures |b.password| < MinPasswordLength ==>
      "Password must be at least 8 characters" in Messages(Violations(NewUser(id, b)))
  {
    var vs := Violations(NewUser(id, b));
    if ToLower(Trim(b.role)) !in Roles {
      MessageListed(vs, Violation("role", EnumMessage(ToLower(Trim(b.role)), "role")));
    }
    if |b.password| < MinPasswordLength {
      MessageListed(vs, Violation("password", "Password must be at least 8 characters"));
    }
  }

  /**
   * A name of blanks passes the handler's presence check but trims to nothing, so the schema's
   * `required` refuses it and the first message is the name's.
   */
  lemma BlankNameRejected(users: seq<User>, b: SignupRequest, id: ObjectId, c: Primitives, salt: string)
    requires AllSupplied(b) && FindByEmail(users, b.email).None? && Trim(b.name) == ""
    ensures Signup(users, b, id, c, salt) ==
      Outcome(Failure(400, Join(Messages(Violations(NewUser(id, b))), ", ")), users)
    ensures Messages(Violations(NewUser(id, b)))[0] == "Name is required"
  {
  }

  /** A role given in any letter case and padding is stored in the schema's spelling. */
  lemma SignupRoleNormalised(users: seq<User>, b: SignupRequest, id: ObjectId, c: Primitives, salt: string)
    requires Signup(users, b, id, c, salt).reply.Success?
    ensures Signup(users, b, id, c, salt).reply.value.user.role in Roles
    ensures Signup(users, b, id, c, salt).reply.value.user.role == ToLower(Trim(b.role))
  {
  }

  /** A new account keeps the collection consistent: the address was not taken and the id is fresh. */
  lemma SignupKeepsConsistent(users: seq<User>, b: SignupRequest, id: ObjectId, c: Primitives, salt: string)
    requires Consistent(users) && forall j :: 0 <= j < |users| ==> users[j].id != id
    ensures Consistent(Signup(users, b, id, c, salt).users)
  {
    var o := Signup(users, b, id, c, salt);
    if o.reply.Success? {
      var u := o.users[|users|];
      assert u.id == id && u.email == NormalizeEmail(b.email);
      forall i, j | 0 <= i < j < |o.users|
        ensures o.users[i].id != o.users[j].id && o.users[i].email != o.users[j].email
      {
        assert o.users[i] == users[i];
        if j < |users| {
          assert o.users[j] == users[j];
        }
      }
    }
  }

  /** The handler over the store: guards, then `User.create`. */
  method HandleSignup(store: UserStore, b: SignupRequest, id: ObjectId, c: Primitives, salt: string)
    returns (reply: Reply<Session>)
    modifies store
    ensures Outcome(reply, store.users) == Signup(old(store.users), b, id, c, salt)
  {
    if !AllSupplied(b) {
      return Failure(400, "Please provide all required fields");
    }
    if FindByEmail(store.users, b.email).Some? {
      return Failure(400, "User already exists");
    }
    var outcome := store.Insert(NewUser(id, b), c, salt);
    match outcome
    case Invalid(errors) =>
      reply := Failure(400, Join(Messages(errors), ", "));
    case Stored(u) =>
      reply := Success(201, Session(Public(u), c.sign(u.id)));
  }
}

=== FILE: strings.dfy ===
/**
 * The JavaScript string operations the application relies on:
 * `startsWith`, `includes`, `trim`, `toLowerCase` and `Array.prototype.join`.
 */
module Strings {

  /** `s.startsWith(prefix)` */
  predicate StartsWith(s: string, prefix: string) {
    |prefix| <= |s| && s[..|prefix|] == prefix
  }

  /** `s.includes(part)`: `part` occurs somewhere in `s` as a contiguous run. */
  predicate Includes(s: string, part: string)
    decreases |s|
  {
    StartsWith(s, part) || (s != [] && Includes(s[1..], part))
  }

  lemma {:induction false} IncludesAt(s: string, part: string, i: nat)
    requires i + |part| <= |s| && s[i..i + |part|] == part
    ensures Includes(s, part)
  {
    if i > 0 {
      assert s[1..][i - 1..i - 1 + |part|] == s[i..i + |part|];
      IncludesAt(s[1..], part, i - 1);
    }
  }

  /** Every string includes the empty string and itself. */
  lemma IncludesTrivially(s: string)
    ensures Includes(s, "") && Includes(s, s)
  {
    IncludesAt(s, "", 0);
    IncludesAt(s, s, 0);
  }

  /** The characters `trim` removes (the ASCII white space, NO-BREAK SPACE and the byte order mark). */
  predicate IsSpace(c: char) {
    c == ' ' || c == '\t' || c == '\n' || c == '\r' || c == '\U{000B}' || c == '\U{000C}'
    || c == '\U{00A0}' || c == '\U{FEFF}'
  }

  function TrimStart(s: string): (r: string)
    ensures |r| <= |s| && r == s[|s| - |r|..]
    ensures r == [] || !IsSpace(r[0])
  {
    if s != [] && IsSpace(s[0]) then TrimStart(s[1..]) else s
  }

  function TrimEnd(s: string): (r: string)
    ensures |r| <= |s| && r == s[..|r|]
    ensures r == [] || !IsSpace(r[|r| - 1])
  {
    if s != [] && IsSpace(s[|s| - 1]) then TrimEnd(s[..|s| - 1]) else s
  }

  /** `s.trim()` */
  function Trim(s: string): (r: string)
  {
    TrimEnd(TrimStart(s))
  }

  lemma {:induction false} TrimStartOfUnpadded(s: string)
    requires s == [] || !IsSpace(s[0])
    ensures TrimStart(s) == s
  {
  }

  lemma {:induction false} TrimEndOfUnpadded(s: string)
    requires s == [] || !IsSpace(s[|s| - 1])
    ensures TrimEnd(s) == s
  {
  }

  /** Trimming leaves no white space at either end. */
  lemma TrimShape(s: string)
    ensures Trim(s) == [] || (!IsSpace(Trim(s)[0]) && !IsSpace(Trim(s)[|Trim(s)| - 1]))
  {
    var t := TrimStart(s);
    var r := TrimEnd(t);
    assert r == t[..|r|];
    if r != [] {
      assert r[0] == t[0];
    }
  }

  /** `trim` is idempotent: a value stored after trimming is unchanged by trimming it again. */
  lemma TrimIdempotent(s: string)
    ensures Trim(Trim(s)) == Trim(s)
  {
    TrimShape(s);
    var r := Trim(s);
    TrimStartOfUnpadded(r);
    TrimEndOfUnpadded(r);
  }

  /** `toLowerCase` on one character (ASCII letters only). */
  function LowerChar(c: char): char {
    if 'A' <= c <= 'Z' then (c as int + 32) as char else c
  }

  /** `s.toLowerCase()` */
  function ToLower(s: string): (r: string)
    ensures |r| == |s|
    ensures forall i :: 0 <= i < |s| ==> r[i] == LowerChar(s[i])
  {
    if s == [] then [] else [LowerChar(s[0])] + ToLower(s[1..])
  }

  lemma ToLowerIdempotent(s: string)
    ensures ToLower(ToLower(s)) == ToLower(s)
  {
  }

  lemma {:induction false} TrimStartToLower(s: string)
    ensures TrimStart(ToLower(s)) == ToLower(TrimStart(s))
    decreases |s|
  {
    if s != [] {
      var l := ToLower(s);
      assert l[0] == LowerChar(s[0]);
      assert IsSpace(l[0]) == IsSpace(s[0]);
      assert l[1..] == ToLower(s[1..]);
      TrimStartToLower(s[1..]);
    }
  }

  lemma {:induction false} TrimEndToLower(s: string)
    ensures TrimEnd(ToLower(s)) == ToLower(TrimEnd(s))
    decreases |s|
  {
    if s != [] {
      var l := ToLower(s);
      var init := s[..|s| - 1];
      assert IsSpace(l[|s| - 1]) == IsSpace(s[|s| - 1]);
      if IsSpace(s[|s| - 1]) {
        ToLowerPrefix(s, |s| - 1);
        assert TrimEnd(l) == TrimEnd(ToLower(init));
        TrimEndToLower(init);
      }
    }
  }

  /** Lowercasing a prefix is taking the prefix of the lowercased string. */
  lemma ToLowerPrefix(s: string, n: nat)
    requires n <= |s|
    ensures ToLower(s)[..n] == ToLower(s[..n])
  {
    var l, p := ToLower(s), s[..n];
    var a, b := l[..n], ToLower(p);
    assert |a| == |b| == n;
    forall i | 0 <= i < n
      ensures a[i] == b[i]
    {
      assert a[i] == l[i] == LowerChar(s[i]);
      assert b[i] == LowerChar(p[i]) && p[i] == s[i];
    }
  }

  /** Lowercasing never creates or removes white space, so `trim` and `toLowerCase` commute. */
  lemma TrimToLower(s: string)
    ensures Trim(ToLower(s)) == ToLower(Trim(s))
  {
    TrimStartToLower(s);
    TrimEndToLower(TrimStart(s));
  }

  /** `parts.join(sep)` */
  function Join(parts: seq<string>, sep: string): (r: string)
  {
    if parts == [] then ""
    else if |parts| == 1 then parts[0]
    else parts[0] + sep + Join(parts[1..], sep)
  }
}

=== FILE: users.dfy ===
/**
 * The user record (src/models/User.js): its field constraints and setters, the pre-save
 * hashing guard, `matchPassword`, and the collection of users the handlers act on.
 *
 * Saving follows Mongoose's order: the setters have already run on assignment, then every
 * constraint is checked, and only a record that passes reaches the `pre('save')` hook.
 */
module Users {
  import opened Optional
  import opened Strings
  import opened Seqs
  import opened Crypto
  import opened Validation
  import opened Http

  type ObjectId = nat

  /**
   * A stored user. An absent optional string (`phone`, `address`) is the empty string;
   * an unset token or expiry is `None`.
   */
  datatype User = User(
    id: ObjectId,
    name: string,
    email: string,
    role: string,
    phone: string,
    address: string,
    password: string,
    isVerified: bool,
    verificationToken: Option<string>,
    resetPasswordToken: Option<string>,
    resetPasswordExpire: Option<int>,
    lastLogin: Option<int>)

  const Roles: seq<string> := ["donor", "recipient", "admin"]
  const DefaultRole := "recipient"
  const MinPasswordLength := 8

  /** The role stored for a new user: the default when none is given. */
  function RoleOrDefault(role: Option<string>): (r: string)
    ensures role.None? ==> r == "recipient" && r in Roles
    ensures role.Some? ==> r == role.value
  {
    role.GetOr(DefaultRole)
  }

  /** The `email` setters (`trim`, then `lowercase`); they also apply to query filters on `email`. */
  function NormalizeEmail(email: string): (r: string)
    ensures |r| <= |email|
  {
    ToLower(Trim(email))
  }

  /** A normalised address is left as it is by normalising again. */
  lemma NormalizeEmailIdempotent(email: string)
    ensures NormalizeEmail(NormalizeEmail(email)) == NormalizeEmail(email)
  {
    var t := Trim(email);
    TrimToLower(t);
    TrimIdempotent(email);
    ToLowerIdempotent(t);
  }

  /** Addresses that differ only in surrounding white space and letter case are the same address. */
  lemma NormalizeEmailIgnoresCase(email: string)
    ensures NormalizeEmail(ToLower(email)) == NormalizeEmail(email)
    ensures NormalizeEmail(Trim(email)) == NormalizeEmail(email)
  {
    TrimToLower(email);
    ToLowerIdempotent(Trim(email));
    TrimIdempotent(email);
  }

  /** The schema's constraints as one conjunction. */
  predicate Valid(u: User) {
    && u.name != ""
    && u.email != ""
    && u.role in Roles
    && |u.password| >= MinPasswordLength
  }

  /** The errors `validate()` collects, in schema order, the first failing validator of each path. */
  function Violations(u: User): (r: seq<Violation>)
    ensures r == [] <==> Valid(u)
    ensures u.name == "" ==> r[0] == Violation("name", "Name is required")
    ensures u.role !in Roles ==> Violation("role", EnumMessage(u.role, "role")) in r
    ensures 0 < |u.password| < MinPasswordLength ==> Violation("password", "Password must be at least 8 characters") in r
  {
    Required("name", u.name, "Name is required")
    + Required("email", u.email, "Email is required")
    + Enum("role", u.role, Roles)
    + (if u.password == "" then [Violation("password", "Password is required")]
       else if |u.password| < MinPasswordLength then [Violation("password", "Password must be at least 8 characters")]
       else [])
  }

  /**
   * The `pre('save')` hook on the password: an unmodified password, or one that already starts
   * with `$2`, is kept; any other is replaced by its bcrypt hash. `before` is the stored password,
   * `None` for a new document (whose every field counts as modified).
   */
  function HashOnSave(password: string, before: Option<string>, c: Primitives, salt: string): (r: string)
    ensures before == Some(password) ==> r == password
    ensures StartsWith(password, "$2") ==> r == password
    ensures before != Some(password) && !StartsWith(password, "$2") ==> r == c.hash(password, salt)
  {
    if before == Some(password) || StartsWith(password, "$2") then password else c.hash(password, salt)
  }

  /** With sound primitives the hook never hashes twice: whatever it stores starts with `$2` or was kept. */
  lemma HashOnSaveIdempotent(password: string, before: Option<string>, c: Primitives, salt: string, salt2: string)
    requires Sound(c)
    ensures var once := HashOnSave(password, before, c, salt);
      HashOnSave(once, Some(password), c, salt2) == once
  {
  }

  /** The outcome of `save()` on a user document. */
  datatype SaveOutcome = Stored(user: User) | Invalid(errors: seq<Violation>)

  /** Validate the in-memory document, then run the hook; `before` is the stored version, if any. */
  function Save(before: Option<User>, u: User, c: Primitives, salt: string): (r: SaveOutcome)
    ensures r.Invalid? <==> !Valid(u)
    ensures r.Invalid? ==> r.errors == Violations(u)
    ensures r.Stored? ==> r.user == u.(password := r.user.password)
    ensures r.Stored? ==> r.user.password == HashOnSave(u.password, if before.Some? then Some(before.value.password) else None, c, salt)
  {
    var errors := Violations(u);
    if errors != [] then Invalid(errors)
    else
      var prior := if before.Some? then Some(before.value.password) else None;
      Stored(u.(password := HashOnSave(u.password, prior, c, salt)))
  }

  /** `matchPassword(entered)`: false without a stored password, otherwise bcrypt's verdict. */
  function MatchPassword(u: User, entered: string, c: Primitives): (ok: bool)
    ensures u.password == "" ==> !ok
    ensures u.password != "" ==> ok == c.compare(entered, u.password)
  {
    if u.password == "" then false else c.compare(entered, u.password)
  }

  /** A password the hook hashed matches afterwards. */
  lemma StoredPasswordMatches(before: Option<User>, u: User, c: Primitives, salt: string)
    requires Sound(c) && Valid(u) && !StartsWith(u.password, "$2")
    requires before.None? || before.value.password != u.password
    ensures Save(before, u, c, salt).Stored?
    ensures MatchPassword(Save(before, u, c, salt).user, u.password, c)
  {
  }

  /** A `$2`-prefixed password that is not 60 characters long is stored as given and then matches nothing. */
  lemma RawDollarTwoNeverMatches(before: Option<User>, u: User, c: Primitives, salt: string, entered: string)
    requires Sound(c) && Valid(u) && StartsWith(u.password, "$2") && |u.password| != BcryptLength
    ensures Save(before, u, c, salt).Stored?
    ensures Save(before, u, c, salt).user.password == u.password
    ensures !MatchPassword(Save(before, u, c, salt).user, entered, c)
  {
  }

  /** What responses show of a user: id, name, email and role. */
  datatype PublicUser = PublicUser(id: ObjectId, name: string, email: string, role: string)

  function Public(u: User): PublicUser {
    PublicUser(u.id, u.name, u.email, u.role)
  }

  /** `findOne({ email })`: the first user whose address equals the query after the setters. */
  function FindByEmail(users: seq<User>, email: string): (r: Option<nat>)
    ensures r.Some? ==> r.value < |users| && users[r.value].email == NormalizeEmail(email)
    ensures r.Some? ==> forall j :: 0 <= j < r.value ==> users[j].email != NormalizeEmail(email)
    ensures r.None? <==> forall j :: 0 <= j < |users| ==> users[j].email != NormalizeEmail(email)
  {
    FindAddress(users, NormalizeEmail(email))
  }

  /** A lookup ignores the query's letter case and surrounding white space. */
  lemma FindByEmailIgnoresCase(users: seq<User>, email: string)
    ensures FindByEmail(users, ToLower(email)) == FindByEmail(users, email)
    ensures FindByEmail(users, Trim(email)) == FindByEmail(users, email)
  {
    NormalizeEmailIgnoresCase(email);
  }

  /** Appending an account under an address nobody holds makes a lookup of that address find it. */
  lemma FindByEmailAppended(users: seq<User>, u: User, email: string)
    requires FindByEmail(users, email).None? && u.email == NormalizeEmail(email)
    ensures FindByEmail(users + [u], email) == Some(|users|)
  {
    var after := users + [u];
    assert after[|users|].email == NormalizeEmail(email);
    assert forall j :: 0 <= j < |users| ==> after[j].email != NormalizeEmail(email);
  }

  /** The first user stored under exactly this address. */
  function FindAddress(users: seq<User>, address: string): (r: Option<nat>)
    ensures r.Some? ==> r.value < |users| && users[r.value].email == address
    ensures r.Some? ==> forall j :: 0 <= j < r.value ==> users[j].email != address
    ensures r.None? <==> forall j :: 0 <= j < |users| ==> users[j].email != address
  {
    FirstIndex(users, (u: User) => u.email == address)
  }

  /** `findById(id)` */
  function FindById(users: seq<User>, id: ObjectId): (r: Option<nat>)
    ensures r.Some? ==> r.value < |users| && users[r.value].id == id
    ensures r.None? <==> forall j :: 0 <= j < |users| ==> users[j].id != id
  {
    FirstIndex(users, (u: User) => u.id == id)
  }

  /** A lookup by address sees only addresses: replacing a record by one with the same address changes no answer. */
  lemma FindByEmailAfterUpdate(users: seq<User>, i: nat, u: User, email: string)
    requires i < |users| && u.email == users[i].email
    ensures FindByEmail(users[i := u], email) == FindByEmail(users, email)
  {
    var after := users[i := u];
    var address := NormalizeEmail(email);
    FirstIndexPointwise(after, users, (v: User) => v.email == address);
  }

  /** Likewise a lookup by id sees only ids. */
  lemma FindByIdAfterUpdate(users: seq<User>, i: nat, u: User, id: ObjectId)
    requires i < |users| && u.id == users[i].id
    ensures FindById(users[i := u], id) == FindById(users, id)
  {
    FirstIndexPointwise(users[i := u], users, (v: User) => v.id == id);
  }

  /** The collection: ids are unique and so are addresses (the unique index on `email`). */
  predicate Consistent(users: seq<User>) {
    && (forall i, j :: 0 <= i < j < |users| ==> users[i].id != users[j].id)
    && (forall i, j :: 0 <= i < j < |users| ==> users[i].email != users[j].email)
  }

  /** Replace record `i` when the save went through; anything else leaves the collection as it was. */
  function Apply(users: seq<User>, i: nat, outcome: SaveOutcome): (r: seq<User>)
    requires i < |users|
    ensures |r| == |users|
    ensures forall j :: 0 <= j < |users| && j != i ==> r[j] == users[j]
    ensures outcome.Stored? ==> r[i] == outcome.user
    ensures outcome.Invalid? ==> r == users
  {
    if outcome.Stored? then users[i := outcome.user] else users
  }

  /** What a handler answers, together with the collection it leaves behind. */
  datatype Outcome<T> = Outcome(reply: Reply<T>, users: seq<User>)

  /** A mailing handler's answer, the collection it leaves, and the mail it got delivered, if any. */
  datatype Sent = Sent(outcome: Outcome<string>, mail: Option<Mail>)

  /** The users collection the handlers read and write. */
  class UserStore {
    var users: seq<User>

    constructor (initial: seq<User>)
      ensures users == initial
    {
      users := initial;
    }

    /** `user.save()` on the document loaded from position `i`, after the handler's assignments `u`. */
    method SaveAt(i: nat, u: User, c: Primitives, salt: string) returns (outcome: SaveOutcome)
      requires i < |users|
      modifies this
      ensures outcome == Save(Some(old(users)[i]), u, c, salt)
      ensures users == Apply(old(users), i, outcome)
    {
      var errors := Violations(u);
      if errors != [] {
        outcome := Invalid(errors);
        return;
      }
      var saved := u;
      if saved.password != users[i].password && !StartsWith(saved.password, "$2") {
        saved := saved.(password := c.hash(saved.password, salt));
      }
      users := users[i := saved];
      outcome := Stored(saved);
    }

    /** `User.create(fields)`: validate, hash, append. */
    method Insert(u: User, c: Primitives, salt: string) returns (outcome: SaveOutcome)
      modifies this
      ensures outcome == Save(None, u, c, salt)
      ensures users == if outcome.Stored? then old(users) + [outcome.user] else old(users)
    {
      var errors := Violations(u);
      if errors != [] {
        outcome := Invalid(errors);
        return;
      }
      var saved := u;
      if !StartsWith(saved.password, "$2") {
        saved := saved.(password := c.hash(saved.password, salt));
      }
      users := users + [saved];
      outcome := Stored(saved);
    }
  }
}

=== FILE: validation.dfy ===
/**
 * Schema validation as Mongoose reports it: a `ValidationError` holds, per failing path, the
 * message of the first validator of that path that failed.
 */
module Validation {
  import opened Strings
  import opened Seqs

  /** One entry of `error.errors`. */
  datatype Violation = Violation(path: string, message: string)

  /** Mongoose's default message for a value outside an enum. */
  function EnumMessage(value: string, path: string): string {
    "`" + value + "` is not a valid enum value for path `" + path + "`."
  }

  /** A `required` string path: the empty string fails. */
  function Required(path: string, value: string, message: string): (r: seq<Violation>)
    ensures r == [] <==> value != ""
    ensures r != [] ==> r == [Violation(path, message)]
  {
    if value == "" then [Violation(path, message)] else []
  }

  /** A required string path with an enum: empty fails as required, any other value outside the list as an enum error. */
  function RequiredEnum(path: string, value: string, allowed: seq<string>, message: string): (r: seq<Violation>)
    ensures r == [] <==> value in allowed
    ensures value != "" && value !in allowed ==> r == [Violation(path, EnumMessage(value, path))]
  {
    if value == "" then (if "" in allowed then [] else [Violation(path, message)])
    else if value in allowed then []
    else [Violation(path, EnumMessage(value, path))]
  }

  /** An enum path that is not required. */
  function Enum(path: string, value: string, allowed: seq<string>): (r: seq<Violation>)
    ensures r == [] <==> value in allowed
  {
    if value in allowed then [] else [Violation(path, EnumMessage(value, path))]
  }

  /** A `min` bound with a custom message. */
  function AtLeast(path: string, value: int, min: int, message: string): (r: seq<Violation>)
    ensures r == [] <==> value >= min
  {
    if value < min then [Violation(path, message)] else []
  }

  /** A `maxlength` bound with a custom message. */
  function AtMostLength(path: string, value: string, max: nat, message: string): (r: seq<Violation>)
    ensures r == [] <==> |value| <= max
  {
    if |value| > max then [Violation(path, message)] else []
  }

  /** `Object.values(error.errors).map(err => err.message)` */
  function Messages(vs: seq<Violation>): (r: seq<string>)
    ensures |r| == |vs|
    ensures forall i :: 0 <= i < |vs| ==> r[i] == vs[i].message
  {
    Map(vs, (v: Violation) => v.message)
  }

  /** Every entry's message appears among the messages. */
  lemma MessageListed(vs: seq<Violation>, v: Violation)
    requires v in vs
    ensures v.message in Messages(vs)
  {
    var k :| 0 <= k < |vs| && vs[k] == v;
    assert Messages(vs)[k] == v.message;
  }

  /** `error.message` of a `ValidationError` raised on `model`. */
  function ValidationMessage(model: string, vs: seq<Violation>): string {
    model + " validation failed: " + Join(Map(vs, (v: Violation) => v.path + ": " + v.message), ", ")
  }
}

=== FILE: verify_email.dfy ===
/**
 * `/api/auth/verify-email` (src/app/api/auth/verify-email/route.js). `POST` issues a random token,
 * stores only its SHA-256 digest on the account and mails a link carrying the raw token;
 * `PUT` digests the token it is given, finds the account holding that digest, marks it
 * verified and clears the digest. The random token, the base URL and the mailer are parameters.
 */
module VerifyEmailRoute {
  import opened Optional
  import opened Strings
  import opened Seqs
  import opened Crypto
  import opened Http
  import opened Users

  const InternalError := "Internal server error"
  const InvalidToken := "Invalid verification token"

  /** `${NEXTAUTH_URL}/auth/verify-email/${verificationToken}` */
  function VerifyLink(baseUrl: string, raw: string): (link: string)
    ensures StartsWith(link, baseUrl)
    ensures |link| >= |raw| && link[|link| - |raw|..] == raw
  {
    baseUrl + "/auth/verify-email/" + raw
  }

  /**
   * `POST`: `raw` is `crypto.randomBytes(32).toString('hex')`; `delivered` is whether `sendEmail`
   * resolved. When it rejects, the handler clears the token and saves a second time.
   */
  function SendVerification(users: seq<User>, email: string, raw: string, baseUrl: string, delivered: bool,
                            c: Primitives, salt: string): (r: Sent)
    ensures FindByEmail(users, email).None? ==>
      r == Sent(Outcome(Failure(404, "No user found with this email"), users), None)
    ensures FindByEmail(users, email).Some? && users[FindByEmail(users, email).value].isVerified ==>
      r == Sent(Outcome(Failure(400, "Email already verified"), users), None)
    ensures r.mail.Some? <==> r.outcome.reply.Success?
    ensures r.outcome.reply.Success? ==> r.outcome.reply == Success(200, "Verification email sent")
    ensures r.outcome.reply.Failure? ==> r.outcome.reply.status in {400, 404, 500}
    ensures FindByEmail(users, email).Some? && !users[FindByEmail(users, email).value].isVerified ==>
      var i := FindByEmail(users, email).value;
      if !Valid(users[i]) then r == Sent(Outcome(Failure(500, InternalError), users), None)
      else if delivered then
        && r.outcome.users == users[i := users[i].(verificationToken := Some(c.sha256(raw)))]
        && r.mail == Some(Mail(users[i].email, VerifyLink(baseUrl, raw)))
      else
        r == Sent(Outcome(Failure(500, "Email could not be sent"), users[i := users[i].(verificationToken := None)]), None)
  {
    match FindByEmail(users, email)
    case None => Sent(Outcome(Failure(404, "No user found with this email"), users), None)
    case Some(i) =>
      if users[i].isVerified then Sent(Outcome(Failure(400, "Email already verified"), users), None)
      else
        match Save(Some(users[i]), users[i].(verificationToken := Some(c.sha256(raw))), c, salt)
        case Invalid(_) => Sent(Outcome(Failure(500, InternalError), users), None)
        case Stored(u) =>
          if delivered then
            Sent(Outcome(Success(200, "Verification email sent"), users[i := u]), Some(Mail(u.email, VerifyLink(baseUrl, raw))))
          else
            // the second save re-validates a record that has just passed, so it is stored
            var u2 := Save(Some(u), u.(verificationToken := None), c, salt).user;
            Sent(Outcome(Failure(500, "Email could not be sent"), users[i := u2]), None)
  }

  /** `findOne({ verificationToken: digest })`: the first account holding the digest. */
  function FindByDigest(users: seq<User>, digest: string): (r: Option<nat>)
    ensures r.Some? ==> r.value < |users| && users[r.value].verificationToken == Some(digest)
    ensures r.Some? ==> forall j :: 0 <= j < r.value ==> users[j].verificationToken != Some(digest)
    ensures r.None? <==> forall j :: 0 <= j < |users| ==> users[j].verificationToken != Some(digest)
  {
    FirstIndex(users, (u: User) => u.verificationToken == Some(digest))
  }

  /** `PUT`: confirm the address with the raw token from the link. */
  function ConfirmVerification(users: seq<User>, token: string, c: Primitives, salt: string): (o: Outcome<string>)
    ensures token == "" ==> o == Outcome(Failure(400, "Verification token is required"), users)
    ensures token != "" && FindByDigest(users, c.sha256(token)).None? ==> o == Outcome(Failure(400, InvalidToken), users)
    ensures o.reply.Failure? ==> o.users == users
    ensures o.reply.Success? <==>
      token != "" && FindByDigest(users, c.sha256(token)).Some? && Valid(users[FindByDigest(users, c.sha256(token)).value])
    ensures o.reply.Success? ==>
      var i := FindByDigest(users, c.sha256(token)).value;
      && o.reply == Success(200, "Email verified successfully")
      && o.users == users[i := users[i].(isVerified := true, verificationToken := None)]
  {
    if token == "" then Outcome(Failure(400, "Verification token is required"), users)
    else
      match FindByDigest(users, c.sha256(token))
      case None => Outcome(Failure(400, InvalidToken), users)
      case Some(i) =>
        match Save(Some(users[i]), users[i].(isVerified := true, verificationToken := None), c, salt)
        case Invalid(_) => Outcome(Failure(500, InternalError), users)
        case Stored(u) => Outcome(Success(200, "Email verified successfully"), users[i := u])
  }

  /** A confirmation works once: when no other account holds the digest, the same token is then refused. */
  lemma ConfirmSingleUse(users: seq<User>, token: string, c: Primitives, salt: string, salt2: string)
    requires ConfirmVerification(users, token, c, salt).reply.Success?
    requires forall j :: 0 <= j < |users| && j != FindByDigest(users, c.sha256(token)).value ==>
      users[j].verificationToken != Some(c.sha256(token))
    ensures var after := ConfirmVerification(users, token, c, salt).users;
      ConfirmVerification(after, token, c, salt2) == Outcome(Failure(400, InvalidToken), after)
  {
    var i := FindByDigest(users, c.sha256(token)).value;
    var after := ConfirmVerification(users, token, c, salt).users;
    forall j | 0 <= j < |after|
      ensures after[j].verificationToken != Some(c.sha256(token))
    {
      if j != i {
        assert after[j] == users[j];
      }
    }
  }

  /**
   * The round trip: on an unverified valid account, when no account held the new digest, the raw
   * token carried by the delivered link confirms the address and leaves no token behind.
   */
  lemma SendThenConfirm(users: seq<User>, email: string, raw: string, baseUrl: string, c: Primitives,
                        salt: string, salt2: string)
    requires FindByEmail(users, email).Some?
    requires !users[FindByEmail(users, email).value].isVerified && Valid(users[FindByEmail(users, email).value])
    requires raw != "" && forall j :: 0 <= j < |users| ==> users[j].verificationToken != Some(c.sha256(raw))
    ensures var r := SendVerification(users, email, raw, baseUrl, true, c, salt);
      var i := FindByEmail(users, email).value;
      var o := ConfirmVerification(r.outcome.users, raw, c, salt2);
      && r.mail.Some? && r.mail.value.link[|r.mail.value.link| - |raw|..] == raw
      && o.reply == Success(200, "Email verified successfully")
      && o.users[i].isVerified && o.users[i].verificationToken.None?
  {
    var i := FindByEmail(users, email).value;
    var mid := SendVerification(users, email, raw, baseUrl, true, c, salt).outcome.users;
    assert mid == users[i := users[i].(verificationToken := Some(c.sha256(raw)))];
    forall j | 0 <= j < i
      ensures mid[j].verificationToken != Some(c.sha256(raw))
    {
      assert mid[j] == users[j];
    }
    assert |mid| == |users| && mid[i].verificationToken == Some(c.sha256(raw));
    var found := FindByDigest(mid, c.sha256(raw));
    assert found.Some?;
    assert found.value == i;
    assert Valid(mid[i]) by {
      assert mid[i].password == users[i].password && mid[i].name == users[i].name;
      assert mid[i].email == users[i].email && mid[i].role == users[i].role;
    }
  }

  /** `POST` over the store: the first save, the mail, and on failure the second save. */
  method HandleSendVerification(store: UserStore, email: string, raw: string, baseUrl: string, delivered: bool,
                                c: Primitives, salt: string)
    returns (reply: Reply<string>, mail: Option<Mail>)
    modifies store
    ensures Sent(Outcome(reply, store.users), mail) == SendVerification(old(store.users), email, raw, baseUrl, delivered, c, salt)
  {
    mail := None;
    var found := FindByEmail(store.users, email);
    if found.None? {
      return Failure(404, "No user found with this email"), None;
    }
    var i := found.value;
    if store.users[i].isVerified {
      return Failure(400, "Email already verified"), None;
    }
    var first := store.SaveAt(i, store.users[i].(verificationToken := Some(c.sha256(raw))), c, salt);
    if first.Invalid? {
      return Failure(500, InternalError), None;
    }
    if delivered {
      return Success(200, "Verification email sent"), Some(Mail(first.user.email, VerifyLink(baseUrl, raw)));
    }
    var second := store.SaveAt(i, first.user.(verificationToken := None), c, salt);
    reply := Failure(500, "Email could not be sent");
  }

  /** `PUT` over the store. */
  method HandleConfirmVerification(store: UserStore, token: string, c: Primitives, salt: string)
    returns (reply: Reply<string>)
    modifies store
    ensures Outcome(reply, store.users) == ConfirmVerification(old(store.users), token, c, salt)
  {
    if token == "" {
      return Failure(400, "Verification token is required");
    }
    var found := FindByDigest(store.users, c.sha256(token));
    if found.None? {
      return Failure(400, InvalidToken);
    }
    var i := found.value;
    var outcome := store.SaveAt(i, store.users[i].(isVerified := true, verificationToken := None), c, salt);
    if outcome.Invalid? {
      return Failure(500, InternalError);
    }
    reply := Success(200, "Email verified successfully");
  }
}
